=== FILE: README.md ===
# PISM rule-based core, modelled in Dafny

This project models six pieces of sequential, rule-based logic from PISM,
the Parallel Ice Sheet Model. Each quantity is a Dafny `real`, in exact
arithmetic. Grid fields are `seq<seq<real>>`, indexed `[i][j]`.

- **Distributed subglacial hydrology** (`Pressure`, `Distributed`):
  - the check of `0 <= P <= Po` on water pressure, and its enforcing variant;
  - the per-cell pressure update: ice-free land, ocean, dry and wet branches, with the final projection onto `[0, Po]`;
  - the closed-form steady-state pressure;
  - the adaptive sub-stepper, including its guard against a repeated `(t, dt)` request, the step length as the minimum of five bounds, and the loop that covers `[t, t + dt]`.
- **Scalar-field helpers** (`ScalarField`):
  - masking;
  - the sum, max, min and absmax reductions;
  - centred and edge-aware finite differences.
- **Exp3 calving** (`Exp3Calving`):
  - the velocity-magnitude variant over the whole grid, including its in-place second pass;
  - the per-cell rules of the along-flow variant.
- **Blatter grid transposes** (`GridHierarchy`): the relabelling of `DMDALocalInfo` and `DMInfo` from PETSc's axis order to PISM's, and `grid_z`.
- **Connected-components sea-level mask** (`SeaLevelCC`): the edge sink mask, `label` and `computeMask`.
- **Lingle-Clark bed deformation scheduling** (`LingleClark`): whether a call deforms the bed, and what it hands to the solver.

Shared modules:

- `Outcomes` provides `Option` and `Result`.
- `Intervals` holds the repeated-interval guard that two components share.
- `Fields` defines grids, fields, ghost reads, and the five-point star and staggered faces.
- `RealSeqs` provides sums, means and selections over sequences.
- `CellTypes` defines the cell-type mask.

Modelling conventions:

- **Sweep order.** A sweep over the grid visits `i` in the outer loop and `j` in the inner one.
- **Ghost reads.** A read one cell past the owned range wraps to the opposite edge, because the grid's storage is periodic. One process owns the whole grid.
- **Opaque collaborators.** Physics that other files compute enters as function-valued parameters. For the hydrology these are `pow`, conductivity, velocity, fluxes, the `W` and `Wtil` updates, and the CFL and diffusion bounds. For the sea-level mask it is `trackParentRun`.
- **Errors.** A thrown error becomes a `Failure` carrying the first offending cell.

## Model

| member | source | states |
|---|---|---|
| Pressure.Clip | src/hydrology/Distributed.cc:235-237 | The result lies in `[a, b]` when `a <= b`. It is `x` inside the interval and the nearer end outside. Below `a` it is `min(a, b)`, because max is applied before min. |
| Pressure.ClipIdempotent | src/hydrology/Distributed.cc:235-237 | Clipping a clipped value again changes nothing. |
| Pressure.FirstViolation | src/hydrology/Distributed.cc:156-173 | Returns the first cell in sweep order, from a given cell on, whose pressure is negative or (when only checking) above `Po + 0.001`. Every earlier cell is fine. When it returns nothing, no cell from that point on violates. |
| Pressure.CheckPBounds | src/hydrology/Distributed.cc:148-180 | Success iff every `P >= 0` and, when not enforcing, every `P <= Po + 0.001`. When enforcing, every cell becomes `min(P, Po)`. When only checking, `P` is returned unchanged. A failure names the first violating cell in sweep order, says which bound it broke, and carries the offending values. |
| Pressure.CheckAcceptsBoundedPressure | src/hydrology/Distributed.cc:159-173 | A pressure already within `[0, Po]` passes in both modes and comes back unchanged. |
| Pressure.Opening | src/hydrology/Distributed.cc:288 | Cavity opening is non-negative for non-negative coefficient and speed, and vanishes once `W >= Wr`. |
| Pressure.Closing | src/hydrology/Distributed.cc:289 | Creep closure vanishes without water, and is non-negative when `c2·A >= 0`, `W >= 0` and the power of the effective pressure is non-negative. |
| Pressure.AdvectiveDivergence | src/hydrology/Distributed.cc:292 | Balanced fluxes through opposite faces give zero divergence. |
| Pressure.Diffusion | src/hydrology/Distributed.cc:293-300 | Uniform water thickness across the star gives zero diffusion, whatever the conductivities. |
| Pressure.UnclippedP | src/hydrology/Distributed.cc:302-308 | At a balanced cell the explicit step leaves the pressure unchanged. A balanced cell has uniform `W`, balanced fluxes and no till-water change, and its closure plus input equals its opening. |
| Pressure.UnclippedPGrowsWithInput | src/hydrology/Distributed.cc:306-308 | With `rg·dt/phi0 > 0`, more water input gives a strictly higher unclipped pressure, all else equal. |
| Pressure.UnclippedPInput | src/hydrology/Distributed.cc:302-308 | Raising the input by `d`, all else equal, raises the unclipped pressure by exactly `rg·dt/phi0 · d`: input enters `ZZ` one for one. |
| Pressure.PNew | src/hydrology/Distributed.cc:276-311 | The branches are checked in priority order: ice-free land gives 0, then ocean gives `Po`, then a dry cell (`W <= 0`) gives `Po`. A wet cell gives the explicit step projected onto `[0, Po]`. Whenever `Po >= 0` the result lies in `[0, Po]`. |
| Pressure.CreepClosureRaisesPressure | src/hydrology/Distributed.cc:287-311 | Take a grounded cell with uniform `W = 0.1`, `Po = 1e5`, `P = 5e4`, no sliding, no input and balanced fluxes. Its pressure rises strictly and stays at most `Po`. |
| Pressure.UpdateP | src/hydrology/Distributed.cc:270-313 | Every cell gets the per-cell rule applied to the pre-step fields, and the result is within `[0, Po]` wherever `Po >= 0`. |
| Pressure.SlidingTerm | src/hydrology/Distributed.cc:211 | The sliding term `sb` is non-negative when `pow` is non-negative on non-negative bases, `c1 >= 0`, `c2·A > 0` and the speed is non-negative. |
| Pressure.WaterTerm | src/hydrology/Distributed.cc:223-226 | The water term is non-negative for `W > 0` when `pow` is non-negative on non-negative bases. Once `W >= Wr` its base is 0. |
| Pressure.SteadyP | src/hydrology/Distributed.cc:211-227 | With `W = 0`: 0 when the sliding term `sb > 0`, else `Po`. With `W != 0`: the result is `max(0, Po - sb·p)`, stated as at least both 0 and `Po - sb·p` and equal to one of them, where `p` is the water term. A cell whose water term is 0 sits at `Po` when `Po >= 0`. The result is at most `Po` when `Po >= 0` and both terms are non-negative. |
| Pressure.SteadyPWithinBounds | src/hydrology/Distributed.cc:211-227 | The steady pressure lies in `[0, Po]` in every case. The hypotheses are `Po >= 0`, `pow` non-negative on non-negative bases, `c1 >= 0`, `c2·A > 0`, and non-negative `W` and sliding speed. |
| Pressure.PFromWSteady | src/hydrology/Distributed.cc:192-229 | Every cell gets the steady pressure of its own `W`, `Po` and sliding speed. |
| Pressure.MaxTimestepPDiff | src/hydrology/Distributed.cc:231-233 | The pressure diffusion bound is positive when porosity and the `W` diffusion bound are. How it competes with the other bounds is stated by `Distributed.PDiffBinds`. |
| Distributed.StepSize | src/hydrology/Distributed.cc:390-399 | The sub-step is at most each of: the remaining time, `dt_max`, `dt_cfl`, `dt_diff_w` and `2·phi0·dt_diff_w`. It equals one of them. |
| Distributed.PDiffBinds | src/hydrology/Distributed.cc:388-398 | When the remaining time, `dt_max` and `dt_cfl` are all at least `dt_diff_w > 0`: the step is shorter than `dt_diff_w` iff `phi0 < 1/2`. It then equals `dt_diff_p = 2·phi0·dt_diff_w`, and otherwise equals `dt_diff_w`. |
| Distributed.Advance | src/hydrology/Distributed.cc:401-431 | `Wtil`, `P` and `W` are all computed from the same pre-step state and committed together: the new `P` is `update_P` of the old fields and the new `Wtil`, and the new `W` is `update_W` of the same. |
| Distributed.AdvanceWithinBounds | src/hydrology/Distributed.cc:401-431 | With `Po >= 0` everywhere, the pressure after a sub-step lies within `[0, Po]`. |
| Distributed.SubStep | src/hydrology/Distributed.cc:365-431 | Fails iff the bounds check fails: on the first sub-step only on negative pressure, later also above `Po + 0.001`. Never fails after the first sub-step when `P` is within `[0, Po]`. A successful step length is positive, at most `dt_max` and the remaining time, and either finishes the interval or is at least the uniform floor. It is committed: the bounds check of its mode (enforcing only on the first sub-step) passed, the length equals the minimum of the remaining time, `dt_max`, `dt_cfl`, `dt_diff_w` and `2·phi0·dt_diff_w` of the checked state, and the new state is `Advance` of the checked state by that length. A failure carries exactly the error the bounds check of its mode reports for the input pressure. |
| Distributed.Step | src/hydrology/Distributed.cc:365-431 | The next sub-step of a run, with `t + dt - ht` remaining. The first one fails only on a negative pressure, and a later one only when `P` has left `[0, Po]`. A successful step is positive and at most `dt_max` and the remaining time. It is at least the floor `min(dt_max, hmin, 2·phi0·hmin)` unless it finishes the interval. It extends the run's history by one committed sub-step, whose length is the minimum of the five bounds as for `SubStep`. A failure carries exactly the bounds-check error of the current state, in enforcing mode iff no step has been taken. |
| Distributed.CoverProgress | src/hydrology/Distributed.cc:357-432 | A sub-step never carries the clock past `t + dt`, and one that stops short adds at least the floor to the time covered. This is the measure that makes the sub-stepping loop terminate. |
| Distributed.CoverStep | src/hydrology/Distributed.cc:356-431 | One turn of the sub-stepping loop. On success the run grows by one sub-step and keeps the loop's state: the clock is `t` plus the steps' total and does not pass `t + dt`, the lengths are valid and on pace with the floor, `P` stays within `[0, Po]`, and the history is extended. It fails only when the initial `P` or `Po` has a negative cell, leaving the run as it was, and then carries exactly the bounds-check error of the current state, in enforcing mode iff no step has been taken. |
| Distributed.Cover | src/hydrology/Distributed.cc:357-432 | The loop terminates. On success the sub-step lengths add up exactly to `max(0, dt)`. Each length is positive, at most `dt_max`, and no longer than the time still to cover. With `Po >= 0` the final `P` lies within `[0, Po]`. It fails only when the initial `P` or `Po` has a negative cell. The returned history of pre-step states starts at the input state. Sub-step `k` is committed from state `k` to state `k + 1`: checked in enforcing mode iff `k == 0`, of length exactly the minimum of the time not covered by the earlier steps, `dt_max`, and the CFL and both diffusive bounds of the checked state, and advancing it. On success the result is the last state. On failure the steps cover less than `dt`, and the error is exactly the bounds-check error of the last state of the history, in enforcing mode iff no step was taken. |
| Distributed.Update | src/hydrology/Distributed.cc:323-439 | A request within 1e-12 of the recorded `(t, dt)` changes nothing and takes no sub-step. Any other request records `(t, dt)` and covers exactly `max(0, dt)` in bounded sub-steps. It succeeds whenever `P` and `Po` start non-negative. The same history of committed sub-steps as for `Cover` is returned, ending in the new water state. On failure the steps cover less than `dt` and the error is exactly the bounds-check error of the last state of the history, in enforcing mode iff no step was taken. |
| Intervals.Repeats | src/hydrology/Distributed.cc:328 | Before the first call nothing repeats, and the recorded interval repeats itself. The Lingle-Clark model uses the same guard (src/earth/PBLingleClark.cc, lines 189-190). |
| ScalarField.ApplyMask | src/util/IceModelVec2S.cc:83-95 | Exactly the cells with `M <= 0` become `fill`; every other cell keeps its value. |
| ScalarField.ApplyMaskIdempotent | src/util/IceModelVec2S.cc:83-95 | Masking twice with the same mask and fill equals masking once. |
| ScalarField.Sum | src/util/IceModelVec2S.cc:152-164 | The result is the arithmetic sum of all owned cells, in sweep order. |
| ScalarField.Max | src/util/IceModelVec2S.cc:167-178 | On a non-empty grid the result is at least every cell and equal to some cell. |
| ScalarField.Min | src/util/IceModelVec2S.cc:195-206 | On a non-empty grid the result is at most every cell and equal to some cell. |
| ScalarField.AbsMax | src/util/IceModelVec2S.cc:181-191 | The result is at least 0 and at least `abs(x)` for every cell. It is either 0 or the absolute value of some cell. |
| ScalarField.DiffX | src/util/IceModelVec2S.cc:99-101 | Equals the edge-aware x-difference of a periodic axis, i.e. the centred difference over `2·dx`. |
| ScalarField.DiffY | src/util/IceModelVec2S.cc:105-107 | Equals the edge-aware y-difference of a periodic axis, i.e. the centred difference over `2·dy`. |
| ScalarField.EdgeAwareDifference | src/util/IceModelVec2S.cc:112-126 | The stencil brackets the cell and spans one or two cells. It is centred iff the axis is periodic or the cell is interior. On a non-periodic axis with at least two cells it reads only owned cells. |
| ScalarField.DiffXP | src/util/IceModelVec2S.cc:112-126 | The x-derivative is the difference over the edge-aware stencil: centred when periodic or interior, forward at `i = 0`, backward at `i = Mx-1`. |
| ScalarField.DiffYP | src/util/IceModelVec2S.cc:131-147 | The y-derivative is the difference over the edge-aware stencil: centred when periodic or interior, forward at `j = 0`, backward at `j = My-1`. |
| ScalarField.DiffXPExactOnLinear | src/util/IceModelVec2S.cc:112-126 | On a non-periodic grid, a field linear in x with slope `c` has x-derivative exactly `c` at every cell, edges included. |
| ScalarField.DiffYPExactOnLinear | src/util/IceModelVec2S.cc:131-147 | On a non-periodic grid, a field linear in y with slope `c` has y-derivative exactly `c` at every cell, edges included. |
| Exp3Calving.FrontRates | src/frontretreat/calving/Exp3Calving.cc:158-167 | First pass: floating ice next to ice-free ocean gets the ice speed; every other cell gets 0. |
| Exp3Calving.IcyNeighbourRates | src/frontretreat/calving/Exp3Calving.cc:177-185 | There are as many rates as icy neighbours (`N`), and some iff the cell is next to ice. They add up to the front-to-back sum of the icy neighbours' rates (`R_sum`). Each is the rate of an icy neighbour. |
| Exp3Calving.FillCell | src/frontretreat/calving/Exp3Calving.cc:171-191 | Only an ice-free ocean cell next to ice is rewritten, and it gets `R_sum / N` over its icy neighbours. Every other cell keeps its rate. |
| Exp3Calving.FillBetween | src/frontretreat/calving/Exp3Calving.cc:179-190 | A filled value lies between any lower and upper bound of the averaged neighbour rates. |
| Exp3Calving.FillNonNegative | src/frontretreat/calving/Exp3Calving.cc:179-190 | Non-negative neighbour rates give a non-negative filled value. |
| Exp3Calving.FillReadsIcyCells | src/frontretreat/calving/Exp3Calving.cc:177-190 | The fill of a cell depends only on the cell itself and its icy neighbours. |
| Exp3Calving.Filled | src/frontretreat/calving/Exp3Calving.cc:171-191 | Every cell gets the second-pass rule applied to a frozen copy of the rates. |
| Exp3Calving.MagnitudeUpdate | src/frontretreat/calving/Exp3Calving.cc:158-192 | The in-place second pass gives the same field as filling a frozen copy of the first pass. The front keeps the ice speed. Cells that are neither front nor ice-free ocean next to ice get 0. Non-negative speeds give non-negative rates. |
| Exp3Calving.FillRow | src/frontretreat/calving/Exp3Calving.cc:171-191 | Sweeping one row in place, with earlier rows filled and later ones still holding the first pass, fills exactly that row as the frozen-copy fill would. |
| Exp3Calving.FillStep | src/frontretreat/calving/Exp3Calving.cc:171-191 | Rewriting one cell in place extends the filled part by that cell, since the fill reads only icy neighbours, which the pass never rewrites. |
| Exp3Calving.FilledNonNegative | src/frontretreat/calving/Exp3Calving.cc:171-191 | Filling non-negative rates gives non-negative rates everywhere. |
| Exp3Calving.InflowRate | src/frontretreat/calving/Exp3Calving.cc:104-122 | The front rate is the sum of the inward velocity components (`u` from the west, `-u` from the east, `v` from the south, `-v` from the north) over the neighbours that hold ice and move into the cell. It is at least 0, positive iff some such neighbour exists, and at most the sum of the four component magnitudes. |
| Exp3Calving.AlongFlowFrontRate | src/frontretreat/calving/Exp3Calving.cc:99-125 | At ice-free ocean next to floating ice the rate is the inflow rate of the cell's neighbours, and elsewhere it is 0. It is at least 0, and positive iff the cell is such a front cell and ice flows in. |
| Exp3Calving.FrontFlags | src/frontretreat/calving/Exp3Calving.cc:87-125 | Every flag is 0 or 1. It is 1 exactly at ice-free ocean cells next to floating ice. |
| Exp3Calving.AlongFlowFill | src/frontretreat/calving/Exp3Calving.cc:131-153 | A cell changes iff all of these hold: it is ice-free ocean, its rate is below `Cmin = 1e-7`, it touches a flagged cell, and some neighbour's rate exceeds `Cmin`. A changed cell gets `R_sum / N` over the neighbours whose rate exceeds `Cmin`, and that exceeds `Cmin`. |
| Exp3Calving.FillAboveCmin | src/frontretreat/calving/Exp3Calving.cc:140-151 | The mean of neighbour rates that all exceed `Cmin` exceeds `Cmin`. |
| GridHierarchy.ToPism | src/stressbalance/blatter/util/grid_hierarchy.cc:94-102 | The PETSc-to-PISM axis table moves every axis (x→z, y→x, z→y). |
| GridHierarchy.GridTranspose | src/stressbalance/blatter/util/grid_hierarchy.cc:111-139 | Every per-axis field — sizes, owned start and width, ghosted start and width, boundary type — moves from PETSc axis `a` to PISM axis `ToPism(a)`. `dim`, `dof`, `sw`, `st` and `da` are copied unchanged. |
| GridHierarchy.GridTransposeThrice | src/stressbalance/blatter/util/grid_hierarchy.cc:111-139 | Transposing a local info record three times gives back the original. |
| GridHierarchy.GridTransposeInjective | src/stressbalance/blatter/util/grid_hierarchy.cc:111-139 | Different records stay different after a transpose. |
| GridHierarchy.Transpose | src/stressbalance/blatter/util/grid_hierarchy.cc:55-75 | Grid sizes, process counts, ownership ranges and boundary types move along the axis table. `dims`, `dof`, `stencil_width` and `stencil_type` are unchanged, and so is the total process count. |
| GridHierarchy.TransposeThrice | src/stressbalance/blatter/util/grid_hierarchy.cc:55-75 | Transposing a `DMInfo` three times gives back the original. |
| GridHierarchy.GridZ | src/stressbalance/blatter/util/grid_hierarchy.cc:85-87 | Node 0 is at `b` and node `Mz-1` at `b + H`, given `Mz >= 2`. |
| GridHierarchy.GridZSpacing | src/stressbalance/blatter/util/grid_hierarchy.cc:85-87 | Consecutive nodes are `H / (Mz - 1)` apart. |
| GridHierarchy.GridZMonotone | src/stressbalance/blatter/util/grid_hierarchy.cc:85-87 | With `H >= 0`, height is non-decreasing in the node index. |
| GridHierarchy.GridZWithin | src/stressbalance/blatter/util/grid_hierarchy.cc:85-87 | With `H >= 0`, nodes `0 .. Mz-1` lie within `[b, b + H]`. |
| SeaLevelCC.EdgeMask | src/coupler/ocean/sea_level/SeaLevel_ConnectedComponents.cc:14-20 | Every cell is 0 or 1. It is 1 exactly on the first and last row and column of the grid. |
| SeaLevelCC.EdgeMeansNeighbourOffGrid | src/coupler/ocean/sea_level/SeaLevel_ConnectedComponents.cc:14-20 | A cell is marked as a sink iff one of its four neighbours lies off the grid. |
| SeaLevelCC.Painted | src/coupler/ocean/sea_level/SeaLevel_ConnectedComponents.cc:46-55 | The cells of labelled runs `0 .. run_number` (those whose root label exceeds 1) get the value. Every other cell keeps its old value. |
| SeaLevelCC.PaintedIdempotent | src/coupler/ocean/sea_level/SeaLevel_ConnectedComponents.cc:46-54 | Labelling twice with the same runs and value equals labelling once. |
| SeaLevelCC.Label | src/coupler/ocean/sea_level/SeaLevel_ConnectedComponents.cc:36-56 | The in-place walk over the runs writes exactly the painted field: the value on every cell of a labelled run, nothing elsewhere. |
| SeaLevelCC.ComputeMask | src/coupler/ocean/sea_level/SeaLevel_ConnectedComponents.cc:58-74 | Every cell of the mask is 0 or 1. It is 1 exactly on cells of runs `0 .. run_number` whose root label exceeds 1. |
| LingleClark.Update | src/earth/PBLingleClark.cc:187-225 | A request repeating the last `(t, dt)` within 1e-12 changes nothing. Any other request records `(t, dt)`, even when no step follows. A step is skipped iff the gap since the last deformation is below the interval before the run's end, or below 1e-12. A skip leaves `t_beddef_last` and the counter unchanged. A step sets `t_beddef_last := t + dt` and adds one to the counter. It hands the solver the gap and the time since the start of the run. |
| LingleClark.UpdateIdempotent | src/earth/PBLingleClark.cc:189-195 | Repeating a call right away changes nothing and deforms nothing. |
| LingleClark.RunTelescopes | src/earth/PBLingleClark.cc:200-224 | Over any sequence of calls, the step lengths handed to the solver add up to the advance of `t_beddef_last`. Each is at least 1e-12, and the counter rises by the number of steps. |

## Left out

- Floating point. Every quantity is an exact `real`. The tolerances 1e-12, 0.001 and 1e-7 are exact constants. Exact coverage of `[t, t + dt]` by sub-steps holds only in exact arithmetic.
- Parallelism. The following are MPI/PETSc plumbing, and one process owning the whole grid is modelled instead:
  - `ParallelSection`;
  - `GlobalSum`, `GlobalMax` and `GlobalMin`;
  - `update_ghosts` and access scopes.
- Periodic ghosts. Ghost reads wrap around; the grid class that decides this is not part of this model.
- Hydrology physics is opaque (the `Operators` record and `Config.pow`):
  - `pow`;
  - `water_thickness_staggered`;
  - `compute_conductivity` and `compute_velocity`;
  - `advective_fluxes`;
  - `update_W` and `update_Wtil`;
  - `max_timestep_W_cfl` and `max_timestep_W_diff`;
  - `compute_input_rate` and `compute_overburden_pressure`.

  The input rate and overburden pressure are given fields.
- Hydrology setup and I/O: `init`, `init_bwp`, the model-state I/O, log messages and the debug-only checks.
- Distributed.Cover: assumes the CFL and `W` diffusion bounds never fall below a fixed `hmin > 0`, and assumes `dt_max > 0` and `phi0 > 0`. Termination needs this: positive bounds alone allow ever-shrinking sub-steps that never reach `t + dt`.
- Distributed.Update: the same assumptions as `Cover`. On a failure it returns only the error. The state the program leaves behind after an error is not modelled: the interval is already recorded, earlier sub-steps are committed, and in enforcing mode the cells before the offending one are already clipped.
- Pressure.CheckPBounds: in enforcing mode the program clips cell by cell and may throw part-way. The model reports the error and does not return a partially clipped field.
- Pressure.SteadyP: the upper bound is stated only under the sign conditions on `pow`, because `pow` is opaque.
- Pressure.Closing: its sign is stated under a sign condition on `pow`, for the same reason.
- ScalarField.Max and ScalarField.Min: require a non-empty grid, since the sweep is seeded from the first owned cell.
- `compute_magnitude` and the velocity magnitude are square roots. The ice speed enters Exp3 as a given field.
- Exp3 along-flow variant: modelled as per-cell rules only. The fill loop sits textually inside the loop over cells, so it runs once per cell on partly updated rates and ghosts. No whole-grid postcondition is claimed for that branch.
- Exp3: the unit conversion `C`, the unused thickness threshold, `init` and the diagnostics are left out.
- GridHierarchy.GridZ: requires `Mz >= 2`. With `Mz = 1` the program divides by zero.
- Grid hierarchy: `DMInfo::setup`, `setup_level`, `create_restriction` and `restrict_data` are DMDA creation, matrices and printing, and are left out.
- Sea-level mask:
  - `compute_runs`, `trackParentRun` and `is_foreground` are not part of this model; `trackParentRun` is a function parameter.
  - Run lists are integer sequences; the program stores them as doubles and truncates on use.
  - `label` requires the labelled runs to lie inside the grid, which the program takes for granted.
- Lingle-Clark: not modelled are
  - the solver step;
  - the copies to and from processor 0;
  - `compute_uplift`;
  - `allocate`, `init` and `correct_topg`.

  A step is reported as the arguments the solver would receive. Before the first call no interval is recorded.
- The other files of the repository (the verification harness, test drivers, option defaults and ocean/calving headers) are outside this model.

=== FILE: cell_types.dfy ===
/** The cell-type mask: each cell is ice-free bedrock, grounded ice, floating
    ice or ice-free ocean, and the classification predicates built on it. */
module CellTypes {
  import opened Fields

  datatype CellType = IceFreeBedrock | GroundedIce | FloatingIce | IceFreeOcean {

    /** No ice, and the bed is above sea level. */
    predicate IceFreeLand() { this == IceFreeBedrock }

    /** Covered by the ocean: floating ice or open water. */
    predicate Ocean() { this == FloatingIce || this == IceFreeOcean }

    predicate Icy() { this == GroundedIce || this == FloatingIce }

    predicate Floating() { this == FloatingIce }

    predicate IceFreeOceanCell() { this == IceFreeOcean }
  }

  type Mask = seq<seq<CellType>>

  predicate NextToIce(g: Grid, m: Mask, i: int, j: int)
    requires Shaped(m, g) && InGrid(g, i, j)
  {
    var s := StarAt(g, m, i, j);
    s.n.Icy() || s.e.Icy() || s.s.Icy() || s.w.Icy()
  }

  predicate NextToFloatingIce(g: Grid, m: Mask, i: int, j: int)
    requires Shaped(m, g) && InGrid(g, i, j)
  {
    var s := StarAt(g, m, i, j);
    s.n.Floating() || s.e.Floating() || s.s.Floating() || s.w.Floating()
  }

  predicate NextToIceFreeOcean(g: Grid, m: Mask, i: int, j: int)
    requires Shaped(m, g) && InGrid(g, i, j)
  {
    var s := StarAt(g, m, i, j);
    s.n.IceFreeOceanCell() || s.e.IceFreeOceanCell() || s.s.IceFreeOceanCell() || s.w.IceFreeOceanCell()
  }
}

=== FILE: distributed.dfy ===
/** The adaptive sub-stepper of the distributed hydrology model: one outer
    update integrates water thickness W, till water Wtil and pressure P
    over `[t, t + dt]` in explicit sub-steps, each as long as the tightest
    of five stability and coverage bounds allows.

    Transport physics (staggered thickness, conductivity, velocity,
    advective flux, the W and Wtil updates, the CFL and diffusion bounds)
    is opaque and enters as the `Operators` record. */
module Distributed {
  import opened Fields
  import opened Outcomes
  import opened RealSeqs
  import opened Pressure
  import opened Intervals

  /** Staggered values of one cell: thickness, conductivity, flux. */
  datatype FaceSet = FaceSet(ws: Faces, k: Faces, q: Faces)

  /** The opaque collaborators of the sub-stepper. Field-producing ones are
      given per cell, with read access to whole fields. */
  datatype Operators = Operators(
    faces: (Field, Field, nat, nat) -> FaceSet,                        // staggered fields at (i, j) from W, P
    maxKW: (Field, Field) -> real,                                     // largest K·W over the faces, from W, P
    dtCfl: (Field, Field) -> real,                                     // advective (CFL) bound, from W, P
    dtDiffW: real -> real,                                             // diffusive bound for W, from max K·W
    wtilNext: (real, Field, Field, nat, nat) -> real,                  // till water after hdt, from Wtil, input
    wNext: (real, Field, Water, Field, Transport, nat, nat) -> real)   // W after hdt

  /** The bounds every sub-step length respects. */
  ghost predicate BoundedBelow(ops: Operators, hmin: real) {
    && (forall W, P :: ops.dtCfl(W, P) >= hmin)
    && (forall x :: ops.dtDiffW(x) >= hmin)
  }

  /** Persistent state of the model between outer updates. */
  datatype State = State(last: Option<Interval>, water: Water)

  function TransportOf(g: Grid, ops: Operators, W: Field, P: Field): (tr: Transport)
    ensures tr.Shaped(g)
  {
    Transport(
      seq(g.Mx, i requires 0 <= i < g.Mx => seq(g.My, j requires 0 <= j < g.My => ops.faces(W, P, i, j).ws)),
      seq(g.Mx, i requires 0 <= i < g.Mx => seq(g.My, j requires 0 <= j < g.My => ops.faces(W, P, i, j).k)),
      seq(g.Mx, i requires 0 <= i < g.Mx => seq(g.My, j requires 0 <= j < g.My => ops.faces(W, P, i, j).q)))
  }

  function NextWtil(g: Grid, ops: Operators, hdt: real, Wtil: Field, input: Field): (r: Field)
    ensures Shaped(r, g)
  {
    seq(g.Mx, i requires 0 <= i < g.Mx => seq(g.My, j requires 0 <= j < g.My => ops.wtilNext(hdt, Wtil, input, i, j)))
  }

  function NextW(g: Grid, ops: Operators, hdt: real, input: Field, s: Water, WtilNew: Field, tr: Transport): (r: Field)
    ensures Shaped(r, g)
  {
    seq(g.Mx, i requires 0 <= i < g.Mx => seq(g.My, j requires 0 <= j < g.My => ops.wNext(hdt, input, s, WtilNew, tr, i, j)))
  }

  /** Length of one sub-step: the remaining time, the configured maximum,
      the CFL bound and the two diffusive bounds, whichever is smallest. */
  function StepSize(remaining: real, dtMax: real, dtCfl: real, dtDiffW: real, phi0: real): (h: real)
    ensures h <= remaining && h <= dtMax && h <= dtCfl && h <= dtDiffW && h <= MaxTimestepPDiff(phi0, dtDiffW)
    ensures h == remaining || h == dtMax || h == dtCfl || h == dtDiffW || h == MaxTimestepPDiff(phi0, dtDiffW)
  {
    var h := Min(remaining, dtMax);
    var h := Min(h, dtCfl);
    var h := Min(h, dtDiffW);
    Min(h, MaxTimestepPDiff(phi0, dtDiffW))
  }

  /** When the remaining time, `dtMax` and the CFL bound are all at least
      the diffusive bound for W, the pressure's diffusive bound
      `2 phi0 dtDiffW` decides the step exactly when `phi0 < 1/2`;
      otherwise the diffusive bound for W does. */
  lemma PDiffBinds(remaining: real, dtMax: real, dtCfl: real, dtDiffW: real, phi0: real)
    requires phi0 > 0.0 && dtDiffW > 0.0
    requires remaining >= dtDiffW && dtMax >= dtDiffW && dtCfl >= dtDiffW
    ensures StepSize(remaining, dtMax, dtCfl, dtDiffW, phi0) < dtDiffW <==> phi0 < 0.5
    ensures phi0 < 0.5 ==> StepSize(remaining, dtMax, dtCfl, dtDiffW, phi0) == MaxTimestepPDiff(phi0, dtDiffW)
    ensures phi0 >= 0.5 ==> StepSize(remaining, dtMax, dtCfl, dtDiffW, phi0) == dtDiffW
  {
    if phi0 < 0.5 {
      ScaleKeepsOrder(dtDiffW, 2.0 * phi0, 1.0);
    } else {
      assert dtDiffW * (2.0 * phi0) >= dtDiffW * 1.0 by {
        ScaleKeepsOrderWeak(dtDiffW, 1.0, 2.0 * phi0);
      }
    }
  }

  /** One sub-step after the bounds check. Till water, pressure and water
      thickness are all computed from the same pre-step state `s`, then
      committed together. */
  function Advance(g: Grid, cfg: Config, f: Forcing, ops: Operators, hdt: real, s: Water): (r: Water)
    requires g.Valid() && cfg.Valid() && hdt != 0.0
    requires f.Shaped(g) && s.Shaped(g)
    ensures r.Shaped(g)
    ensures var tr := TransportOf(g, ops, s.W, s.P);
      && r.Wtil == NextWtil(g, ops, hdt, s.Wtil, f.input)
      && r.P == UpdateP(g, cfg, hdt, f, s, r.Wtil, tr)
      && r.W == NextW(g, ops, hdt, f.input, s, r.Wtil, tr)
  {
    var tr := TransportOf(g, ops, s.W, s.P);
    var WtilNew := NextWtil(g, ops, hdt, s.Wtil, f.input);
    var PNew := UpdateP(g, cfg, hdt, f, s, WtilNew, tr);
    var WNew := NextW(g, ops, hdt, f.input, s, WtilNew, tr);
    Water(WNew, WtilNew, PNew)
  }

  /** A sub-step leaves the pressure within `[0, Po]` wherever the
      overburden pressure is non-negative. */
  lemma AdvanceWithinBounds(g: Grid, cfg: Config, f: Forcing, ops: Operators, hdt: real, s: Water)
    requires g.Valid() && cfg.Valid() && hdt != 0.0
    requires f.Shaped(g) && s.Shaped(g) && NonNegative(g, f.Po)
    ensures WithinBounds(g, Advance(g, cfg, f, ops, hdt, s).P, f.Po)
  {
  }

  /** A positive lower bound on every sub-step that does not finish the
      interval. */
  function StepFloor(dtMax: real, hmin: real, phi0: real): (fl: real)
    requires dtMax > 0.0 && hmin > 0.0 && phi0 > 0.0
    ensures fl > 0.0
  {
    Min(Min(dtMax, hmin), MaxTimestepPDiff(phi0, hmin))
  }

  lemma DiffusionBoundBelow(ops: Operators, hmin: real, maxKW: real)
    requires BoundedBelow(ops, hmin)
    ensures ops.dtDiffW(maxKW) >= hmin
  {
  }

  lemma PDiffMonotone(phi0: real, a: real, b: real)
    requires phi0 > 0.0 && a <= b
    ensures MaxTimestepPDiff(phi0, a) <= MaxTimestepPDiff(phi0, b)
  {
    assert phi0 * a <= phi0 * b;
  }

  /** At most `(dt / fl).Floor + 1` sub-steps fit in `dt` when every one
      that does not finish the interval is at least `fl` long. */
  function MaxSteps(dt: real, fl: real): (n: int)
    requires fl > 0.0
    ensures dt >= 0.0 ==> n >= 1
  {
    (dt / fl).Floor + 1
  }

  /** The least time `c` sub-steps of length at least `fl` can cover. */
  function Covered(c: nat, fl: real): (m: real)
    requires fl > 0.0
    ensures m >= 0.0
  {
    if c == 0 then 0.0 else Covered(c - 1, fl) + fl
  }

  lemma {:induction false} CoveredIsProduct(c: nat, fl: real)
    requires fl > 0.0
    ensures Covered(c, fl) == c as real * fl
  {
    if c > 0 {
      CoveredIsProduct(c - 1, fl);
      assert (c - 1) as real * fl + fl == c as real * fl;
    }
  }

  lemma CountBelowMaxSteps(c: nat, dt: real, fl: real)
    requires fl > 0.0 && Covered(c, fl) < dt
    ensures c < MaxSteps(dt, fl)
  {
    CoveredIsProduct(c, fl);
    BelowQuotient(c as real, dt, fl);
  }

  /** `a * fl < dt` puts `a` below `dt / fl` when `fl` is positive. */
  lemma BelowQuotient(a: real, dt: real, fl: real)
    requires fl > 0.0 && a * fl < dt
    ensures a < dt / fl
  {
    var q := dt / fl;
    QuotientTimes(dt, fl);
    if q <= a {
      ScaleKeepsOrderWeak(fl, q, a);
      assert false;
    }
  }

  lemma QuotientTimes(dt: real, fl: real)
    requires fl > 0.0
    ensures dt / fl * fl == dt
  {
  }

  /** One sub-step of a run: whether it is the first, the time left before
      it, the state it starts from, its length and the state it ends in. */
  datatype Sub = Sub(first: bool, remaining: real, pre: Water, h: real, post: Water)

  /** A committed sub-step `x`: the pressure of `x.pre` passed the bounds
      check of its mode (enforcing only on the first sub-step), `x.h` is
      positive and is the least of `x.remaining`, `dtMax` and the CFL and
      both diffusive bounds of the checked state, and `x.post` is that state
      advanced by `x.h`. */
  ghost predicate Committed(g: Grid, cfg: Config, f: Forcing, ops: Operators, dtMax: real, x: Sub)
    requires g.Valid() && cfg.Valid() && f.Shaped(g) && x.pre.Shaped(g)
  {
    match CheckPBounds(g, x.pre.P, f.Po, x.first)
    case Failure(_) => false
    case Success(P) =>
      var c := x.pre.(P := P);
      var dw := ops.dtDiffW(ops.maxKW(c.W, c.P));
      && 0.0 < x.h
      && x.h == StepSize(x.remaining, dtMax, ops.dtCfl(c.W, c.P), dw, cfg.phi0)
      && x.post == Advance(g, cfg, f, ops, x.h, c)
  }

  /** One sub-step from state `s` with `remaining` time left: check the
      pressure bounds (enforcing the upper one on the first sub-step), pick
      the step length, advance. Yields the new state and the length taken. */
  function SubStep(g: Grid, cfg: Config, f: Forcing, ops: Operators, dtMax: real, hmin: real,
                   first: bool, remaining: real, s: Water): (r: Result<(Water, real), PressureError>)
    requires g.Valid() && cfg.Valid() && cfg.phi0 > 0.0
    requires f.Shaped(g) && s.Shaped(g)
    requires dtMax > 0.0 && hmin > 0.0 && BoundedBelow(ops, hmin) && remaining > 0.0
    ensures r.Success? ==>
      && r.value.0.Shaped(g)
      && 0.0 < r.value.1 <= remaining && r.value.1 <= dtMax
      && (r.value.1 == remaining || r.value.1 >= StepFloor(dtMax, hmin, cfg.phi0))
      && (NonNegative(g, f.Po) ==> WithinBounds(g, r.value.0.P, f.Po))
    ensures r.Failure? <==> (if first then !NonNegative(g, s.P) else CheckPBounds(g, s.P, f.Po, false).Failure?)
    ensures r.Failure? ==> CheckPBounds(g, s.P, f.Po, first) == Failure(r.error)
    ensures !first && NonNegative(g, f.Po) && WithinBounds(g, s.P, f.Po) ==> r.Success?
    ensures r.Success? ==> Committed(g, cfg, f, ops, dtMax, Sub(first, remaining, s, r.value.1, r.value.0))
  {
    match CheckPBounds(g, s.P, f.Po, first)
    case Failure(e) => Failure(e)
    case Success(P) =>
      var checked := s.(P := P);
      var dtCfl := ops.dtCfl(checked.W, checked.P);
      var dtDiffW := ops.dtDiffW(ops.maxKW(checked.W, checked.P));
      var hdt := StepSize(remaining, dtMax, dtCfl, dtDiffW, cfg.phi0);
      DiffusionBoundBelow(ops, hmin, ops.maxKW(checked.W, checked.P));
      PDiffMonotone(cfg.phi0, hmin, dtDiffW);
      assert hdt == remaining || hdt >= StepFloor(dtMax, hmin, cfg.phi0);
      assert NonNegative(g, f.Po) ==> WithinBounds(g, Advance(g, cfg, f, ops, hdt, checked).P, f.Po) by {
        if NonNegative(g, f.Po) {
          AdvanceWithinBounds(g, cfg, f, ops, hdt, checked);
        }
      }
      Success((Advance(g, cfg, f, ops, hdt, checked), hdt))
  }

  /** Sub-step lengths that are positive, at most `dtMax` and never longer
      than the time still to cover. */
  ghost predicate ValidSteps(steps: seq<real>, dt: real, dtMax: real) {
    && (forall k :: 0 <= k < |steps| ==> 0.0 < steps[k] <= dtMax)
    && (forall k :: 0 <= k < |steps| ==> steps[k] <= dt - SumSeq(steps[..k]))
  }

  lemma StepsAppend(steps: seq<real>, h: real, dt: real, dtMax: real)
    requires ValidSteps(steps, dt, dtMax)
    requires 0.0 < h <= dtMax && h <= dt - SumSeq(steps)
    ensures ValidSteps(steps + [h], dt, dtMax)
    ensures SumSeq(steps + [h]) == SumSeq(steps) + h
  {
    SumSeqAppend(steps, h);
    assert (steps + [h])[..|steps|] == steps;
    assert forall k :: 0 <= k < |steps| ==> (steps + [h])[..k] == steps[..k];
  }

  /** While the clock `ht` is short of `tFinal`, the `c` sub-steps taken
      since `t` have covered at least `c` floors' worth of time. */
  predicate OnPace(c: nat, fl: real, t: real, ht: real, tFinal: real)
    requires fl > 0.0
  {
    ht < tFinal ==> Covered(c, fl) <= ht - t
  }

  /** One sub-step of length `h` from `ht` towards `tFinal` keeps the loop's
      accounting: the clock does not pass `tFinal`, and unless it reaches
      it, the step was at least the floor, so the covered time grows by a
      full floor's worth. */
  lemma CoverProgress(c: nat, fl: real, t: real, ht: real, h: real, tFinal: real)
    requires fl > 0.0 && ht < tFinal && OnPace(c, fl, t, ht, tFinal)
    requires 0.0 < h <= tFinal - ht && (h == tFinal - ht || h >= fl)
    ensures ht + h <= tFinal
    ensures OnPace(c + 1, fl, t, ht + h, tFinal)
  {
    if ht + h < tFinal {
      assert Covered(c + 1, fl) == Covered(c, fl) + fl;
    }
  }

  /** The pre-step states of a run of sub-steps over an interval of length
      `dt`: `states[0]` is the initial state, and sub-step `k` is committed
      from `states[k]` to `states[k + 1]` with length `steps[k]` and the
      time not yet covered by `steps[..k]` remaining, enforcing the upper
      pressure bound only when `k == 0`. */
  ghost predicate History(g: Grid, cfg: Config, f: Forcing, ops: Operators, dt: real, dtMax: real,
                          w0: Water, steps: seq<real>, states: seq<Water>)
    requires g.Valid() && cfg.Valid() && f.Shaped(g)
  {
    && |states| == |steps| + 1
    && states[0] == w0
    && (forall k :: 0 <= k < |states| ==> states[k].Shaped(g))
    && (forall k :: 0 <= k < |steps| ==> CommittedAt(g, cfg, f, ops, dt, dtMax, steps, states, k))
  }

  /** Sub-step `k` of a history, from `states[k]` to `states[k + 1]`. */
  ghost predicate CommittedAt(g: Grid, cfg: Config, f: Forcing, ops: Operators, dt: real, dtMax: real,
                              steps: seq<real>, states: seq<Water>, k: int)
    requires g.Valid() && cfg.Valid() && f.Shaped(g)
    requires 0 <= k < |steps| && |states| == |steps| + 1 && states[k].Shaped(g)
  {
    Committed(g, cfg, f, ops, dtMax, SubAt(dt, steps, states, k))
  }

  /** Sub-step `k` of a run over an interval of length `dt`, with the time
      not covered by `steps[..k]` remaining. */
  function SubAt(dt: real, steps: seq<real>, states: seq<Water>, k: int): (x: Sub)
    requires 0 <= k < |steps| && |states| == |steps| + 1
    ensures x.pre == states[k]
  {
    Sub(k == 0, dt - SumSeq(steps[..k]), states[k], steps[k], states[k + 1])
  }

  lemma HistoryAppend(g: Grid, cfg: Config, f: Forcing, ops: Operators, dt: real, dtMax: real,
                      w0: Water, steps: seq<real>, states: seq<Water>, h: real, s2: Water)
    requires g.Valid() && cfg.Valid() && f.Shaped(g) && s2.Shaped(g)
    requires History(g, cfg, f, ops, dt, dtMax, w0, steps, states)
    requires Committed(g, cfg, f, ops, dtMax, Sub(|steps| == 0, dt - SumSeq(steps), states[|steps|], h, s2))
    ensures History(g, cfg, f, ops, dt, dtMax, w0, steps + [h], states + [s2])
  {
    var steps', states' := steps + [h], states + [s2];
    forall k | 0 <= k < |steps'|
      ensures CommittedAt(g, cfg, f, ops, dt, dtMax, steps', states', k)
    {
      if k < |steps| {
        CommittedAtKept(g, cfg, f, ops, dt, dtMax, steps, states, h, s2, k);
      } else {
        CommittedAtLast(g, cfg, f, ops, dt, dtMax, steps, states, h, s2);
      }
    }
  }

  /** The appended sub-step is committed from the last state of the run. */
  lemma CommittedAtLast(g: Grid, cfg: Config, f: Forcing, ops: Operators, dt: real, dtMax: real,
                        steps: seq<real>, states: seq<Water>, h: real, s2: Water)
    requires g.Valid() && cfg.Valid() && f.Shaped(g)
    requires |states| == |steps| + 1 && states[|steps|].Shaped(g)
    requires Committed(g, cfg, f, ops, dtMax, Sub(|steps| == 0, dt - SumSeq(steps), states[|steps|], h, s2))
    ensures CommittedAt(g, cfg, f, ops, dt, dtMax, steps + [h], states + [s2], |steps|)
  {
    assert (states + [s2])[|steps|] == states[|steps|];
    SubAtLast(dt, steps, states, h, s2);
    CommittedSame(g, cfg, f, ops, dtMax, Sub(|steps| == 0, dt - SumSeq(steps), states[|steps|], h, s2),
                  SubAt(dt, steps + [h], states + [s2], |steps|));
  }

  lemma CommittedSame(g: Grid, cfg: Config, f: Forcing, ops: Operators, dtMax: real, x: Sub, y: Sub)
    requires g.Valid() && cfg.Valid() && f.Shaped(g) && x.pre.Shaped(g)
    requires Committed(g, cfg, f, ops, dtMax, x) && y == x
    ensures Committed(g, cfg, f, ops, dtMax, y)
  {
  }

  lemma SubAtLast(dt: real, steps: seq<real>, states: seq<Water>, h: real, s2: Water)
    requires |states| == |steps| + 1
    ensures SubAt(dt, steps + [h], states + [s2], |steps|) == Sub(|steps| == 0, dt - SumSeq(steps), states[|steps|], h, s2)
  {
    assert (steps + [h])[..|steps|] == steps;
  }

  /** Appending a sub-step leaves the earlier ones as they were. */
  lemma CommittedAtKept(g: Grid, cfg: Config, f: Forcing, ops: Operators, dt: real, dtMax: real,
                        steps: seq<real>, states: seq<Water>, h: real, s2: Water, k: int)
    requires g.Valid() && cfg.Valid() && f.Shaped(g)
    requires 0 <= k < |steps| && |states| == |steps| + 1 && states[k].Shaped(g)
    requires CommittedAt(g, cfg, f, ops, dt, dtMax, steps, states, k)
    ensures CommittedAt(g, cfg, f, ops, dt, dtMax, steps + [h], states + [s2], k)
  {
    SubAtKept(dt, steps, states, h, s2, k);
    CommittedSame(g, cfg, f, ops, dtMax, SubAt(dt, steps, states, k), SubAt(dt, steps + [h], states + [s2], k));
  }

  lemma SubAtKept(dt: real, steps: seq<real>, states: seq<Water>, h: real, s2: Water, k: int)
    requires 0 <= k < |steps| && |states| == |steps| + 1
    ensures SubAt(dt, steps + [h], states + [s2], k) == SubAt(dt, steps, states, k)
  {
    assert (steps + [h])[..k] == steps[..k];
  }

  /** Takes the next sub-step of a run whose history so far is `steps` and
      `states`, and reports it in the terms the sub-stepping loop needs: the
      first sub-step fails only on a negative pressure, a later one only
      when the pressure has left `[0, Po]`; a successful step is bounded by
      `dtMax` and the remaining time, is at least the floor unless it
      finishes the interval, and extends the history by one committed
      sub-step. */
  method Step(g: Grid, cfg: Config, f: Forcing, ops: Operators, dtMax: real, hmin: real,
              dt: real, w0: Water, steps: seq<real>, ghost states: seq<Water>, remaining: real, s: Water)
    returns (next: Result<Water, PressureError>, h: real)
    requires g.Valid() && cfg.Valid() && cfg.phi0 > 0.0
    requires f.Shaped(g) && s.Shaped(g)
    requires dtMax > 0.0 && hmin > 0.0 && BoundedBelow(ops, hmin) && remaining > 0.0
    requires History(g, cfg, f, ops, dt, dtMax, w0, steps, states) && s == states[|steps|]
    requires remaining == dt - SumSeq(steps)
    ensures next.Failure? && |steps| == 0 ==> !NonNegative(g, s.P)
    ensures next.Failure? && |steps| > 0 ==> !NonNegative(g, f.Po) || !WithinBounds(g, s.P, f.Po)
    ensures next.Failure? ==> CheckPBounds(g, s.P, f.Po, |steps| == 0) == Failure(next.error)
    ensures next.Success? ==>
      && next.value.Shaped(g)
      && 0.0 < h <= remaining && h <= dtMax
      && (h == remaining || h >= StepFloor(dtMax, hmin, cfg.phi0))
      && (NonNegative(g, f.Po) ==> WithinBounds(g, next.value.P, f.Po))
      && History(g, cfg, f, ops, dt, dtMax, w0, steps + [h], states + [next.value])
  {
    match SubStep(g, cfg, f, ops, dtMax, hmin, |steps| == 0, remaining, s)
    case Failure(e) =>
      next, h := Failure(e), 0.0;
    case Success(p) =>
      next, h := Success(p.0), p.1;
      HistoryAppend(g, cfg, f, ops, dt, dtMax, w0, steps, states, h, p.0);
  }

  /** The most sub-steps a run over an interval of length `dt` can take
      when every one that does not finish it is at least `fl` long. */
  function StepBound(dt: real, fl: real): (n: nat)
    requires fl > 0.0
    ensures dt > 0.0 ==> n == MaxSteps(dt, fl)
  {
    if dt > 0.0 then MaxSteps(dt, fl) else 0
  }

  /** The state of the sub-stepping loop of `Cover` after the sub-steps
      `steps`: the clock `ht` has advanced by their total and, once a step
      was taken, does not pass `t + dt`; they are valid lengths, on pace
      with the floor and within the step bound; the pressure stays within
      `[0, Po]` after a step; and `water` is the last state of their
      history. */
  ghost predicate CoverInv(g: Grid, cfg: Config, f: Forcing, ops: Operators, dtMax: real, hmin: real,
                           w0: Water, t: real, dt: real, ht: real, water: Water,
                           steps: seq<real>, states: seq<Water>)
    requires g.Valid() && cfg.Valid() && cfg.phi0 > 0.0 && f.Shaped(g)
    requires dtMax > 0.0 && hmin > 0.0
  {
    var fl := StepFloor(dtMax, hmin, cfg.phi0);
    && water.Shaped(g)
    && ht == t + SumSeq(steps)
    && (|steps| > 0 ==> ht <= t + dt && dt > 0.0)
    && (|steps| == 0 ==> water == w0 && ht == t)
    && ValidSteps(steps, dt, dtMax)
    && (|steps| > 0 && NonNegative(g, f.Po) ==> WithinBounds(g, water.P, f.Po))
    && OnPace(|steps|, fl, t, ht, t + dt)
    && |steps| <= StepBound(dt, fl)
    && History(g, cfg, f, ops, dt, dtMax, w0, steps, states) && water == states[|steps|]
  }

  /** One turn of the sub-stepping loop of `Cover`: takes a sub-step from
      `water` with the time left until `t + dt`, and on success extends the
      run by it, keeping the loop's state. A failure is reported only when
      the initial or the overburden pressure is negative somewhere. */
  method CoverStep(g: Grid, cfg: Config, f: Forcing, ops: Operators, dtMax: real, hmin: real,
                   w0: Water, t: real, dt: real, ht: real, water: Water,
                   steps: seq<real>, ghost states: seq<Water>)
    returns (next: Result<Water, PressureError>, ht': real, steps': seq<real>, ghost states': seq<Water>)
    requires g.Valid() && cfg.Valid() && cfg.phi0 > 0.0
    requires f.Shaped(g) && w0.Shaped(g)
    requires dtMax > 0.0 && hmin > 0.0 && BoundedBelow(ops, hmin)
    requires CoverInv(g, cfg, f, ops, dtMax, hmin, w0, t, dt, ht, water, steps, states) && ht < t + dt
    ensures next.Failure? ==> !NonNegative(g, w0.P) || !NonNegative(g, f.Po)
    ensures next.Failure? ==> steps' == steps && states' == states
    ensures next.Failure? ==> CheckPBounds(g, water.P, f.Po, |steps| == 0) == Failure(next.error)
    ensures next.Success? ==>
      && |steps'| == |steps| + 1
      && CoverInv(g, cfg, f, ops, dtMax, hmin, w0, t, dt, ht', next.value, steps', states')
  {
    var fl := StepFloor(dtMax, hmin, cfg.phi0);
    CountBelowMaxSteps(|steps|, dt, fl);
    var h;
    next, h := Step(g, cfg, f, ops, dtMax, hmin, dt, w0, steps, states, t + dt - ht, water);
    if next.Failure? {
      return next, ht, steps, states;
    }
    CoverProgress(|steps|, fl, t, ht, h, t + dt);
    StepsAppend(steps, h, dt, dtMax);
    ht', steps', states' := ht + h, steps + [h], states + [next.value];
  }

  /** Covers `[t, t + dt]` by sub-steps starting from `w0`, until the
      accumulated time reaches `t + dt`. `steps` lists the sub-step lengths
      and `states` the state before each sub-step and after the last. */
  method Cover(g: Grid, cfg: Config, f: Forcing, ops: Operators, dtMax: real, hmin: real,
               w0: Water, t: real, dt: real)
    returns (r: Result<Water, PressureError>, steps: seq<real>, ghost states: seq<Water>)
    requires g.Valid() && cfg.Valid() && cfg.phi0 > 0.0
    requires f.Shaped(g) && w0.Shaped(g)
    requires dtMax > 0.0 && hmin > 0.0 && BoundedBelow(ops, hmin)
    ensures r.Success? ==> r.value.Shaped(g) && SumSeq(steps) == Max(0.0, dt)
    ensures ValidSteps(steps, dt, dtMax)
    ensures r.Success? && |steps| > 0 && NonNegative(g, f.Po) ==> WithinBounds(g, r.value.P, f.Po)
    ensures r.Failure? ==> !NonNegative(g, w0.P) || !NonNegative(g, f.Po)
    ensures History(g, cfg, f, ops, dt, dtMax, w0, steps, states)
    ensures r.Success? ==> r.value == states[|steps|]
    ensures r.Failure? ==>
      && SumSeq(steps) < dt
      && CheckPBounds(g, states[|steps|].P, f.Po, |steps| == 0) == Failure(r.error)
  {
    steps, states := [], [w0];
    var ht, water := t, w0;
    ghost var bound := StepBound(dt, StepFloor(dtMax, hmin, cfg.phi0));
    while ht < t + dt
      invariant CoverInv(g, cfg, f, ops, dtMax, hmin, w0, t, dt, ht, water, steps, states)
      decreases bound - |steps|
    {
      var next;
      next, ht, steps, states := CoverStep(g, cfg, f, ops, dtMax, hmin, w0, t, dt, ht, water, steps, states);
      if next.Failure? {
        return Failure(next.error), steps, states;
      }
      water := next.value;
    }
    r := Success(water);
  }

  /** Advances the model over `[t, t + dt]`: a request repeating the
      previous interval is a no-op; otherwise the interval is recorded and
      covered by sub-steps. `steps` and `states` are as for `Cover`. */
  method Update(g: Grid, cfg: Config, f: Forcing, ops: Operators, dtMax: real, hmin: real,
                s: State, t: real, dt: real)
    returns (r: Result<State, PressureError>, steps: seq<real>, ghost states: seq<Water>)
    requires g.Valid() && cfg.Valid() && cfg.phi0 > 0.0
    requires f.Shaped(g) && s.water.Shaped(g)
    requires dtMax > 0.0 && hmin > 0.0 && BoundedBelow(ops, hmin)
    ensures Repeats(s.last, t, dt) ==> r == Success(s) && steps == []
    ensures !Repeats(s.last, t, dt) && r.Success? ==>
      && r.value.last == Some(Interval(t, dt))
      && r.value.water.Shaped(g)
      && SumSeq(steps) == Max(0.0, dt)
    ensures forall k :: 0 <= k < |steps| ==> 0.0 < steps[k] <= dtMax
    ensures forall k :: 0 <= k < |steps| ==> steps[k] <= dt - SumSeq(steps[..k])
    ensures r.Success? && |steps| > 0 && NonNegative(g, f.Po) ==> WithinBounds(g, r.value.water.P, f.Po)
    ensures r.Failure? ==> !NonNegative(g, s.water.P) || !NonNegative(g, f.Po)
    ensures NonNegative(g, s.water.P) && NonNegative(g, f.Po) ==> r.Success?
    ensures History(g, cfg, f, ops, dt, dtMax, s.water, steps, states)
    ensures r.Success? ==> r.value.water == states[|steps|]
    ensures r.Failure? ==>
      && SumSeq(steps) < dt
      && CheckPBounds(g, states[|steps|].P, f.Po, |steps| == 0) == Failure(r.error)
  {
    if Repeats(s.last, t, dt) {
      return Success(s), [], [s.water];
    }
    var covered;
    covered, steps, states := Cover(g, cfg, f, ops, dtMax, hmin, s.water, t, dt);
    match covered
    case Failure(e) => r := Failure(e);
    case Success(w) => r := Success(State(Some(Interval(t, dt)), w));
  }
}

=== FILE: exp3_calving.dfy ===
/** The Exp3 calving rule: the calving rate at the front equals the ice
    speed there, and ice-free ocean cells next to the front receive the mean
    rate of their neighbours.

    Two variants exist. The default one uses the speed (velocity magnitude)
    of floating ice next to open water and is modelled over the whole grid.
    The along-flow variant takes, for each open-water cell next to floating
    ice, the velocity components that point into the cell; it is modelled
    as per-cell rules. */
module Exp3Calving {
  import opened Fields
  import opened CellTypes
  import opened RealSeqs

  /** Rates at or below this threshold do not count as calving in the
      along-flow fill. */
  const Cmin: real := 0.0000001

  // ---------------------------------------------------------------------
  // Velocity-magnitude variant
  // ---------------------------------------------------------------------

  /** A floating-ice cell that touches open water: the calving front. */
  predicate IsMagnitudeFront(g: Grid, mask: Mask, i: int, j: int)
    requires Shaped(mask, g) && InGrid(g, i, j)
  {
    mask[i][j].Floating() && NextToIceFreeOcean(g, mask, i, j)
  }

  /** First pass: the front carries the ice speed, every other cell 0. */
  function FrontRates(g: Grid, mask: Mask, speed: Field): (R: Field)
    requires Shaped(mask, g) && Shaped(speed, g)
    ensures Shaped(R, g)
    ensures forall i, j :: InGrid(g, i, j) && IsMagnitudeFront(g, mask, i, j) ==> R[i][j] == speed[i][j]
    ensures forall i, j :: InGrid(g, i, j) && !IsMagnitudeFront(g, mask, i, j) ==> R[i][j] == 0.0
  {
    seq(g.Mx, i requires 0 <= i < g.Mx =>
      seq(g.My, j requires 0 <= j < g.My =>
        if IsMagnitudeFront(g, mask, i, j) then speed[i][j] else 0.0))
  }

  /** The four neighbours in the order North, East, South, West, flagged
      when icy. */
  function IcyFlags(s: Star<CellType>): (r: seq<bool>)
    ensures |r| == 4
  {
    [s.n.Icy(), s.e.Icy(), s.s.Icy(), s.w.Icy()]
  }

  /** The rates of the icy neighbours of `(i, j)`, in the order North,
      East, South, West: as many as there are icy neighbours (`N`), adding
      up to their total rate (`R_sum`), each the rate of one of them. */
  function IcyNeighbourRates(g: Grid, mask: Mask, R: Field, i: int, j: int): (r: seq<real>)
    requires Shaped(mask, g) && Shaped(R, g) && InGrid(g, i, j)
    ensures |r| > 0 <==> NextToIce(g, mask, i, j)
    ensures |r| == CountKept(IcyFlags(StarAt(g, mask, i, j)))
    ensures SumSeq(r) == SumKept(Neighbours(StarAt(g, R, i, j)), IcyFlags(StarAt(g, mask, i, j)))
    ensures forall x :: x in r ==>
      exists k :: 0 <= k < 4 && IcyFlags(StarAt(g, mask, i, j))[k] && Neighbours(StarAt(g, R, i, j))[k] == x
  {
    var keep := IcyFlags(StarAt(g, mask, i, j));
    var rates := Neighbours(StarAt(g, R, i, j));
    assert NextToIce(g, mask, i, j) <==> keep[0] || keep[1] || keep[2] || keep[3];
    SelectSum(rates, keep);
    SelectFrom(rates, keep);
    Select(rates, keep)
  }

  /** Second-pass rule for one cell, reading the rates `R`: an ice-free
      ocean cell next to ice takes the mean rate of its icy neighbours;
      every other cell keeps its rate. */
  function FillCell(g: Grid, mask: Mask, R: Field, i: int, j: int): (r: real)
    requires Shaped(mask, g) && Shaped(R, g) && InGrid(g, i, j)
    ensures !(mask[i][j].IceFreeOceanCell() && NextToIce(g, mask, i, j)) ==> r == R[i][j]
    ensures mask[i][j].IceFreeOceanCell() && NextToIce(g, mask, i, j) ==>
      var keep := IcyFlags(StarAt(g, mask, i, j));
      r == SumKept(Neighbours(StarAt(g, R, i, j)), keep) / CountKept(keep) as real
  {
    var rates := IcyNeighbourRates(g, mask, R, i, j);
    if mask[i][j].IceFreeOceanCell() && NextToIce(g, mask, i, j) && |rates| > 0 then Mean(rates)
    else R[i][j]
  }

  /** A filled value lies between any bounds of the icy neighbours' rates. */
  lemma FillBetween(g: Grid, mask: Mask, R: Field, i: int, j: int, lo: real, hi: real)
    requires Shaped(mask, g) && Shaped(R, g) && InGrid(g, i, j)
    requires mask[i][j].IceFreeOceanCell() && NextToIce(g, mask, i, j)
    requires forall k :: 0 <= k < 4 && IcyFlags(StarAt(g, mask, i, j))[k] ==>
               lo <= Neighbours(StarAt(g, R, i, j))[k] <= hi
    ensures lo <= FillCell(g, mask, R, i, j) <= hi
  {
    var rates := IcyNeighbourRates(g, mask, R, i, j);
    forall k | 0 <= k < |rates|
      ensures lo <= rates[k] <= hi
    {
      assert rates[k] in rates;
    }
    MeanBetween(rates, lo, hi);
  }

  /** Filling never produces a negative rate from non-negative ones. */
  lemma FillNonNegative(g: Grid, mask: Mask, R: Field, i: int, j: int)
    requires Shaped(mask, g) && Shaped(R, g) && InGrid(g, i, j)
    requires NonNegative(g, R)
    ensures FillCell(g, mask, R, i, j) >= 0.0
  {
    if mask[i][j].IceFreeOceanCell() && NextToIce(g, mask, i, j) {
      var s := StarAt(g, R, i, j);
      FillBetween(g, mask, R, i, j, 0.0, Max(Max(s.n, s.e), Max(s.s, s.w)));
    }
  }

  /** The fill reads icy neighbours only, so rates that agree on icy cells
      and on the cell itself fill alike. */
  lemma FillReadsIcyCells(g: Grid, mask: Mask, X: Field, Y: Field, i: int, j: int)
    requires g.Valid() && Shaped(mask, g) && Shaped(X, g) && Shaped(Y, g) && InGrid(g, i, j)
    requires forall a, b :: InGrid(g, a, b) && mask[a][b].Icy() ==> X[a][b] == Y[a][b]
    requires X[i][j] == Y[i][j]
    ensures FillCell(g, mask, X, i, j) == FillCell(g, mask, Y, i, j)
  {
    var m := StarAt(g, mask, i, j);
    var ie, iw, jn, js := Wrap(i + 1, g.Mx), Wrap(i - 1, g.Mx), Wrap(j + 1, g.My), Wrap(j - 1, g.My);
    assert m.n == mask[i][jn] && m.e == mask[ie][j] && m.s == mask[i][js] && m.w == mask[iw][j];
    SelectAgree(Neighbours(StarAt(g, X, i, j)), Neighbours(StarAt(g, Y, i, j)), IcyFlags(m));
    assert IcyNeighbourRates(g, mask, X, i, j) == IcyNeighbourRates(g, mask, Y, i, j);
  }

  /** The second pass applied to a frozen copy of `R`. */
  function Filled(g: Grid, mask: Mask, R: Field): (F: Field)
    requires Shaped(mask, g) && Shaped(R, g)
    ensures Shaped(F, g)
    ensures forall i, j :: InGrid(g, i, j) ==> F[i][j] == FillCell(g, mask, R, i, j)
  {
    seq(g.Mx, i requires 0 <= i < g.Mx =>
      seq(g.My, j requires 0 <= j < g.My => FillCell(g, mask, R, i, j)))
  }

  /** The velocity-magnitude variant. The second pass overwrites the rates
      in place while sweeping the grid; since it rewrites only ice-free
      cells and reads only icy ones, the result equals the fill of a frozen
      copy of the first pass. The front keeps the ice speed, an ice-free
      ocean cell next to ice gets its icy neighbours' mean, and every other
      cell is 0. */
  method MagnitudeUpdate(g: Grid, mask: Mask, speed: Field) returns (rate: Field)
    requires g.Valid() && Shaped(mask, g) && Shaped(speed, g)
    ensures Shaped(rate, g)
    ensures rate == Filled(g, mask, FrontRates(g, mask, speed))
    ensures forall i, j :: InGrid(g, i, j) && IsMagnitudeFront(g, mask, i, j) ==> rate[i][j] == speed[i][j]
    ensures forall i, j :: InGrid(g, i, j) && !IsMagnitudeFront(g, mask, i, j) ==>
              (mask[i][j].IceFreeOceanCell() && NextToIce(g, mask, i, j)) || rate[i][j] == 0.0
    ensures NonNegative(g, speed) ==> NonNegative(g, rate)
  {
    var R := FrontRates(g, mask, speed);
    ghost var F := Filled(g, mask, R);
    rate := R;
    for i := 0 to g.Mx
      invariant Shaped(rate, g)
      invariant forall a, b :: InGrid(g, a, b) ==> rate[a][b] == if a < i then F[a][b] else R[a][b]
    {
      rate := FillRow(g, mask, R, rate, i);
    }
    assert forall a :: 0 <= a < g.Mx ==> rate[a] == F[a];
    if NonNegative(g, speed) {
      FilledNonNegative(g, mask, R);
    }
  }

  /** Fills row `i` of `rate` in place, column by column, when the rows
      before it are filled and the rest still hold the first-pass rates
      `R`. */
  method FillRow(g: Grid, mask: Mask, R: Field, rate0: Field, i: nat) returns (rate: Field)
    requires g.Valid() && Shaped(mask, g) && Shaped(R, g) && Shaped(rate0, g) && i < g.Mx
    requires forall a, b :: InGrid(g, a, b) ==> rate0[a][b] == if a < i then Filled(g, mask, R)[a][b] else R[a][b]
    ensures Shaped(rate, g)
    ensures forall a, b :: InGrid(g, a, b) ==> rate[a][b] == if a <= i then Filled(g, mask, R)[a][b] else R[a][b]
  {
    ghost var F := Filled(g, mask, R);
    rate := rate0;
    for j := 0 to g.My
      invariant Shaped(rate, g)
      invariant forall a, b :: InGrid(g, a, b) ==> rate[a][b] == if Before(a, b, i, j) then F[a][b] else R[a][b]
    {
      FillStep(g, mask, R, rate, i, j);
      rate := rate[i := rate[i][j := FillCell(g, mask, rate, i, j)]];
    }
  }

  /** Filling cell `(i, j)` in place, when the cells before it in sweep
      order are filled and the rest hold `R`, extends the filled part by
      that cell. */
  lemma FillStep(g: Grid, mask: Mask, R: Field, rate: Field, i: nat, j: nat)
    requires g.Valid() && Shaped(mask, g) && Shaped(R, g) && Shaped(rate, g) && InGrid(g, i, j)
    requires forall a, b :: InGrid(g, a, b) ==> rate[a][b] == if Before(a, b, i, j) then Filled(g, mask, R)[a][b] else R[a][b]
    ensures var next := rate[i := rate[i][j := FillCell(g, mask, rate, i, j)]];
      forall a, b :: InGrid(g, a, b) ==> next[a][b] == if Before(a, b, i, j + 1) then Filled(g, mask, R)[a][b] else R[a][b]
  {
    FillReadsIcyCells(g, mask, rate, R, i, j);
  }

  /** Filling non-negative rates gives non-negative rates. */
  lemma FilledNonNegative(g: Grid, mask: Mask, R: Field)
    requires Shaped(mask, g) && Shaped(R, g) && NonNegative(g, R)
    ensures NonNegative(g, Filled(g, mask, R))
  {
    forall a, b | InGrid(g, a, b)
      ensures Filled(g, mask, R)[a][b] >= 0.0
    {
      FillNonNegative(g, mask, R, a, b);
    }
  }

  // ---------------------------------------------------------------------
  // Along-flow variant (per-cell rules)
  // ---------------------------------------------------------------------

  datatype Velocity = Velocity(u: real, v: real)

  /** An open-water cell touching floating ice: the cells that get a front
      rate and the flag 1. */
  predicate IsAlongFlowFront(g: Grid, mask: Mask, i: int, j: int)
    requires Shaped(mask, g) && InGrid(g, i, j)
  {
    mask[i][j].IceFreeOceanCell() && NextToFloatingIce(g, mask, i, j)
  }

  /** Some neighbour with ice in it moves towards the centre cell. */
  predicate Inflow(vel: Star<Velocity>, H: Star<real>) {
    || (vel.w.u > 0.0 && H.w > 0.0)
    || (vel.e.u < 0.0 && H.e > 0.0)
    || (vel.s.v > 0.0 && H.s > 0.0)
    || (vel.n.v < 0.0 && H.n > 0.0)
  }

  /** The velocity component of each neighbour along the axis towards the
      centre cell, signed so that flow into the cell is positive, in the
      order West, East, South, North. */
  function InwardComponents(vel: Star<Velocity>): (r: seq<real>)
    ensures |r| == 4
  {
    [vel.w.u, -vel.e.u, vel.s.v, -vel.n.v]
  }

  /** Flags the neighbours, in the order of `InwardComponents`, that hold
      ice and move towards the centre cell. */
  function InwardFlags(vel: Star<Velocity>, H: Star<real>): (r: seq<bool>)
    ensures |r| == 4
  {
    [vel.w.u > 0.0 && H.w > 0.0, vel.e.u < 0.0 && H.e > 0.0, vel.s.v > 0.0 && H.s > 0.0, vel.n.v < 0.0 && H.n > 0.0]
  }

  /** Sum of the velocity components of ice-covered neighbours that point
      into the cell: from the west and south when positive, from the east
      and north when negative (then negated). */
  function InflowRate(vel: Star<Velocity>, H: Star<real>): (r: real)
    ensures r >= 0.0
    ensures r > 0.0 <==> Inflow(vel, H)
    ensures r <= Abs(vel.w.u) + Abs(vel.e.u) + Abs(vel.s.v) + Abs(vel.n.v)
    ensures r == SumKept(InwardComponents(vel), InwardFlags(vel, H))
  {
    SumKeptFour(InwardComponents(vel), InwardFlags(vel, H));
    var fromW := if vel.w.u > 0.0 && H.w > 0.0 then vel.w.u else 0.0;
    var fromE := if vel.e.u < 0.0 && H.e > 0.0 then -vel.e.u else 0.0;
    var fromS := if vel.s.v > 0.0 && H.s > 0.0 then vel.s.v else 0.0;
    var fromN := if vel.n.v < 0.0 && H.n > 0.0 then -vel.n.v else 0.0;
    fromW + fromE + fromS + fromN
  }

  /** Along-flow front rate of one cell: the inflow rate at the front, 0
      elsewhere. */
  function AlongFlowFrontRate(g: Grid, mask: Mask, vel: seq<seq<Velocity>>, H: Field, i: int, j: int): (r: real)
    requires Shaped(mask, g) && Shaped(vel, g) && Shaped(H, g) && InGrid(g, i, j)
    ensures r >= 0.0
    ensures r > 0.0 <==> IsAlongFlowFront(g, mask, i, j) && Inflow(StarAt(g, vel, i, j), StarAt(g, H, i, j))
    ensures IsAlongFlowFront(g, mask, i, j) ==> r == InflowRate(StarAt(g, vel, i, j), StarAt(g, H, i, j))
    ensures !IsAlongFlowFront(g, mask, i, j) ==> r == 0.0
  {
    if IsAlongFlowFront(g, mask, i, j) then InflowRate(StarAt(g, vel, i, j), StarAt(g, H, i, j)) else 0.0
  }

  /** The front flags: cleared to 0 on entry and set to 1 at each front
      cell. */
  function FrontFlags(g: Grid, mask: Mask): (flags: Field)
    requires Shaped(mask, g)
    ensures Shaped(flags, g)
    ensures forall i, j :: InGrid(g, i, j) ==> flags[i][j] == 0.0 || flags[i][j] == 1.0
    ensures forall i, j :: InGrid(g, i, j) ==> (flags[i][j] == 1.0 <==> IsAlongFlowFront(g, mask, i, j))
  {
    seq(g.Mx, i requires 0 <= i < g.Mx =>
      seq(g.My, j requires 0 <= j < g.My =>
        if IsAlongFlowFront(g, mask, i, j) then 1.0 else 0.0))
  }

  predicate NextToFront(g: Grid, flags: Field, i: int, j: int)
    requires Shaped(flags, g) && InGrid(g, i, j)
  {
    var s := StarAt(g, flags, i, j);
    s.e == 1.0 || s.w == 1.0 || s.n == 1.0 || s.s == 1.0
  }

  /** Neighbour rates above the threshold, flagged in the order North,
      East, South, West. */
  function AboveCmin(s: Star<real>): (r: seq<bool>)
    ensures |r| == 4
  {
    [s.n > Cmin, s.e > Cmin, s.s > Cmin, s.w > Cmin]
  }

  predicate AnyAboveCmin(s: Star<real>) {
    s.n > Cmin || s.e > Cmin || s.s > Cmin || s.w > Cmin
  }

  /** Along-flow fill of one cell reading the current rates `R`: an
      ice-free ocean cell whose rate is below the threshold and that touches
      a flagged cell takes the mean of its neighbours' rates that exceed the
      threshold (`R_sum / N`), if there are any. */
  function AlongFlowFill(g: Grid, mask: Mask, flags: Field, R: Field, i: int, j: int): (r: real)
    requires Shaped(mask, g) && Shaped(flags, g) && Shaped(R, g) && InGrid(g, i, j)
    ensures r == R[i][j] || r > Cmin
    ensures r != R[i][j] <==>
      && mask[i][j].IceFreeOceanCell()
      && R[i][j] < Cmin
      && NextToFront(g, flags, i, j)
      && AnyAboveCmin(StarAt(g, R, i, j))
    ensures r != R[i][j] ==>
      var keep := AboveCmin(StarAt(g, R, i, j));
      && CountKept(keep) > 0
      && r == SumKept(Neighbours(StarAt(g, R, i, j)), keep) / CountKept(keep) as real
  {
    var s := StarAt(g, R, i, j);
    var keep := AboveCmin(s);
    var rates := Select(Neighbours(s), keep);
    assert |rates| > 0 <==> AnyAboveCmin(s) by {
      assert AnyAboveCmin(s) <==> keep[0] || keep[1] || keep[2] || keep[3];
    }
    if mask[i][j].IceFreeOceanCell() && R[i][j] < Cmin && NextToFront(g, flags, i, j) && |rates| > 0 then
      FillAboveCmin(s, keep, rates);
      MeanOfSelect(Neighbours(s), keep);
      Mean(rates)
    else R[i][j]
  }

  lemma FillAboveCmin(s: Star<real>, keep: seq<bool>, rates: seq<real>)
    requires keep == AboveCmin(s) && rates == Select(Neighbours(s), keep) && |rates| > 0
    ensures Mean(rates) > Cmin
  {
    SelectKeeps(Neighbours(s), keep, x => x > Cmin);
    assert forall k :: 0 <= k < |rates| ==> rates[k] in rates;
    MeanAbove(rates, Cmin);
  }
}

=== FILE: fields.dfy ===
/** Structured 2D grids and the fields stored on them.

    A field holds one value per owned cell and is indexed `f[i][j]`, `i`
    along x and `j` along y. One process owns the whole grid. A read one cell
    past the owned range lands in a ghost cell; the grid's storage is
    periodic, so such a read wraps around to the opposite edge. */
module Fields {

  type Field = seq<seq<real>>

  /** Grid size, spacing and the periodicity flags the finite differences
      consult. */
  datatype Grid = Grid(Mx: nat, My: nat, dx: real, dy: real, periodicX: bool, periodicY: bool) {
    predicate Valid() {
      Mx > 0 && My > 0 && dx > 0.0 && dy > 0.0
    }
  }

  /** `f` has one value per cell of `g`. */
  predicate Shaped<T>(f: seq<seq<T>>, g: Grid) {
    |f| == g.Mx && forall i :: 0 <= i < |f| ==> |f[i]| == g.My
  }

  predicate InGrid(g: Grid, i: int, j: int) {
    0 <= i < g.Mx && 0 <= j < g.My
  }

  /** Cell `(a, b)` is visited before cell `(i, j)` by a sweep over the grid
      (i outer, j inner). */
  predicate Before(a: int, b: int, i: int, j: int) {
    a < i || (a == i && b < j)
  }

  /** The owned index that an index at most one cell outside `[0, M)` denotes. */
  function Wrap(i: int, M: nat): (r: nat)
    requires M > 0 && -1 <= i <= M
    ensures r < M
    ensures 0 <= i < M ==> r == i
    ensures (r - i) % M == 0
  {
    if i < 0 then M - 1 else if i >= M then 0 else i
  }

  /** Read at an owned or ghost position. */
  function At<T>(g: Grid, f: seq<seq<T>>, i: int, j: int): T
    requires g.Mx > 0 && g.My > 0 && Shaped(f, g)
    requires -1 <= i <= g.Mx && -1 <= j <= g.My
  {
    f[Wrap(i, g.Mx)][Wrap(j, g.My)]
  }

  /** A cell and its four neighbours: east (i+1), west (i-1), north (j+1),
      south (j-1). */
  datatype Star<T> = Star(ij: T, e: T, w: T, n: T, s: T)

  function StarAt<T>(g: Grid, f: seq<seq<T>>, i: int, j: int): (r: Star<T>)
    requires Shaped(f, g) && InGrid(g, i, j)
    ensures r.ij == f[i][j]
  {
    Star(f[i][j], At(g, f, i + 1, j), At(g, f, i - 1, j), At(g, f, i, j + 1), At(g, f, i, j - 1))
  }

  /** The four neighbours of a star in the order North, East, South, West. */
  function Neighbours<T>(s: Star<T>): (r: seq<T>)
    ensures |r| == 4
  {
    [s.n, s.e, s.s, s.w]
  }

  /** A staggered field stores, per cell, the values on its east face
      (offset 0) and on its north face (offset 1). */
  datatype Faces = Faces(e: real, n: real)

  /** The four faces of a cell: the west face is the east face of cell
      (i-1, j), the south face the north face of cell (i, j-1). */
  datatype Quad = Quad(e: real, w: real, n: real, s: real)

  function QuadAt(g: Grid, f: seq<seq<Faces>>, i: int, j: int): (r: Quad)
    requires Shaped(f, g) && InGrid(g, i, j)
    ensures r.e == f[i][j].e && r.n == f[i][j].n
  {
    Quad(f[i][j].e, At(g, f, i - 1, j).e, f[i][j].n, At(g, f, i, j - 1).n)
  }

  /** Every value of `f` is non-negative. */
  ghost predicate NonNegative(g: Grid, f: Field)
    requires Shaped(f, g)
  {
    forall i, j :: InGrid(g, i, j) ==> f[i][j] >= 0.0
  }
}

=== FILE: grid_hierarchy.dfy ===
/** Index transposes and vertical node placement for the 3D grids of the
    Blatter stress balance.

    PETSc orders a 3D grid's indices `[k][j][i]` for axes x, y, z. PISM
    wants vertical columns stored contiguously, so it relabels the axes
    cyclically: PETSc's first axis plays the vertical, its second the
    horizontal x and its third the horizontal y (`ToPism` gives the exact
    correspondence). Both grid descriptions (`LocalInfo`, the per-process
    view, and `DMInfo`, the global one) are transposed by moving every
    per-axis field along that relabelling and copying every other field. */
module GridHierarchy {

  datatype Axis = X | Y | Z

  /** The PISM axis a PETSc axis becomes. */
  function ToPism(a: Axis): (r: Axis)
    ensures r != a
  {
    match a
    case X => Z
    case Y => X
    case Z => Y
  }

  /** Relabelling three times gives the identity. */
  lemma ToPismCycle(a: Axis)
    ensures ToPism(ToPism(ToPism(a))) == a
  {
  }

  /** How ghost points are treated at a domain boundary. */
  datatype Boundary = BoundaryNone | BoundaryGhosted | BoundaryMirror | BoundaryPeriodic | BoundaryTwist

  datatype StencilType = StencilStar | StencilBox

  /** A process's view of a distributed 3D array: global sizes, the owned
      range (`xs`, `xm`), the owned-plus-ghost range (`gxs`, `gxm`) and the
      boundary type, per axis; plus fields that do not depend on an axis.
      `da` stands for the handle of the distributed array. */
  datatype LocalInfo = LocalInfo(
    dim: int, dof: int, sw: int,
    mx: int, my: int, mz: int,
    xs: int, ys: int, zs: int,
    xm: int, ym: int, zm: int,
    gxs: int, gys: int, gzs: int,
    gxm: int, gym: int, gzm: int,
    boundaryX: Boundary, boundaryY: Boundary, boundaryZ: Boundary,
    st: StencilType,
    da: nat)
  {
    function Size(a: Axis): int {
      match a case X => mx case Y => my case Z => mz
    }
    function Start(a: Axis): int {
      match a case X => xs case Y => ys case Z => zs
    }
    function Width(a: Axis): int {
      match a case X => xm case Y => ym case Z => zm
    }
    function GhostStart(a: Axis): int {
      match a case X => gxs case Y => gys case Z => gzs
    }
    function GhostWidth(a: Axis): int {
      match a case X => gxm case Y => gym case Z => gzm
    }
    function Bnd(a: Axis): Boundary {
      match a case X => boundaryX case Y => boundaryY case Z => boundaryZ
    }

    /** Two records agree on every per-axis field of axis `a` and `b`
        respectively. */
    predicate AxisAs(a: Axis, other: LocalInfo, b: Axis) {
      && Size(a) == other.Size(b)
      && Start(a) == other.Start(b)
      && Width(a) == other.Width(b)
      && GhostStart(a) == other.GhostStart(b)
      && GhostWidth(a) == other.GhostWidth(b)
      && Bnd(a) == other.Bnd(b)
    }

    /** The fields that do not depend on an axis agree. */
    predicate SameShared(other: LocalInfo) {
      dim == other.dim && dof == other.dof && sw == other.sw && st == other.st && da == other.da
    }
  }

  /** Relabels a `LocalInfo` from PETSc's axis order to PISM's. */
  function GridTranspose(input: LocalInfo): (r: LocalInfo)
    ensures forall a: Axis :: r.AxisAs(ToPism(a), input, a)
    ensures r.SameShared(input)
  {
    input.(
      mx := input.my, my := input.mz, mz := input.mx,
      xs := input.ys, ys := input.zs, zs := input.xs,
      xm := input.ym, ym := input.zm, zm := input.xm,
      gxs := input.gys, gys := input.gzs, gzs := input.gxs,
      gxm := input.gym, gym := input.gzm, gzm := input.gxm,
      boundaryX := input.boundaryY, boundaryY := input.boundaryZ, boundaryZ := input.boundaryX)
  }

  /** Transposing three times gives back the original record. */
  lemma GridTransposeThrice(input: LocalInfo)
    ensures GridTranspose(GridTranspose(GridTranspose(input))) == input
  {
    var r1 := GridTranspose(input);
    var r2 := GridTranspose(r1);
    var r3 := GridTranspose(r2);
    forall a: Axis
      ensures r3.AxisAs(a, input, a)
    {
      var b := ToPism(ToPism(a));
      ToPismCycle(a);
      assert r3.AxisAs(ToPism(b), r2, b);
      assert r2.AxisAs(b, r1, ToPism(a));
      assert r1.AxisAs(ToPism(a), input, a);
    }
    assert r3.AxisAs(X, input, X) && r3.AxisAs(Y, input, Y) && r3.AxisAs(Z, input, Z);
  }

  /** Transposing is injective: distinct PETSc views stay distinct. */
  lemma GridTransposeInjective(p: LocalInfo, q: LocalInfo)
    requires GridTranspose(p) == GridTranspose(q)
    ensures p == q
  {
    GridTransposeThrice(p);
    GridTransposeThrice(q);
  }

  /** Global description of a distributed 3D array: sizes, process counts,
      ownership ranges and boundary types per axis, plus axis-free fields. */
  datatype DMInfo = DMInfo(
    dims: int,
    Mx: int, My: int, Mz: int,
    mx: int, my: int, mz: int,
    dof: int, stencilWidth: int,
    boundaryX: Boundary, boundaryY: Boundary, boundaryZ: Boundary,
    stencilType: StencilType,
    lx: seq<int>, ly: seq<int>, lz: seq<int>)
  {
    function GridSize(a: Axis): int {
      match a case X => Mx case Y => My case Z => Mz
    }
    function Procs(a: Axis): int {
      match a case X => mx case Y => my case Z => mz
    }
    function Ownership(a: Axis): seq<int> {
      match a case X => lx case Y => ly case Z => lz
    }
    function Bnd(a: Axis): Boundary {
      match a case X => boundaryX case Y => boundaryY case Z => boundaryZ
    }

    predicate AxisAs(a: Axis, other: DMInfo, b: Axis) {
      && GridSize(a) == other.GridSize(b)
      && Procs(a) == other.Procs(b)
      && Ownership(a) == other.Ownership(b)
      && Bnd(a) == other.Bnd(b)
    }

    predicate SameShared(other: DMInfo) {
      dims == other.dims && dof == other.dof && stencilWidth == other.stencilWidth && stencilType == other.stencilType
    }
  }

  /** Relabels a `DMInfo` from PETSc's axis order to PISM's. */
  function Transpose(info: DMInfo): (r: DMInfo)
    ensures forall a: Axis :: r.AxisAs(ToPism(a), info, a)
    ensures r.SameShared(info)
    ensures r.mx * r.my * r.mz == info.mx * info.my * info.mz
  {
    assert info.my * info.mz * info.mx == info.mx * (info.my * info.mz);
    info.(
      mx := info.my, my := info.mz, mz := info.mx,
      Mx := info.My, My := info.Mz, Mz := info.Mx,
      lx := info.ly, ly := info.lz, lz := info.lx,
      boundaryX := info.boundaryY, boundaryY := info.boundaryZ, boundaryZ := info.boundaryX)
  }

  /** Transposing three times gives back the original description. */
  lemma TransposeThrice(info: DMInfo)
    ensures Transpose(Transpose(Transpose(info))) == info
  {
    var r1 := Transpose(info);
    var r2 := Transpose(r1);
    var r3 := Transpose(r2);
    forall a: Axis
      ensures r3.AxisAs(a, info, a)
    {
      var b := ToPism(ToPism(a));
      ToPismCycle(a);
      assert r3.AxisAs(ToPism(b), r2, b);
      assert r2.AxisAs(b, r1, ToPism(a));
      assert r1.AxisAs(ToPism(a), info, a);
    }
    assert r3.AxisAs(X, info, X) && r3.AxisAs(Y, info, Y) && r3.AxisAs(Z, info, Z);
  }

  /** Height of node `k` of a column with `Mz` equally spaced nodes that
      spans `[b, b + H]`. */
  function GridZ(b: real, H: real, Mz: int, k: int): (z: real)
    requires Mz >= 2
    ensures k == 0 ==> z == b
    ensures k == Mz - 1 ==> z == b + H
  {
    b + H * k as real / (Mz as real - 1.0)
  }

  /** Neighbouring nodes are `H / (Mz - 1)` apart. */
  lemma GridZSpacing(b: real, H: real, Mz: int, k: int)
    requires Mz >= 2
    ensures GridZ(b, H, Mz, k + 1) - GridZ(b, H, Mz, k) == H / (Mz as real - 1.0)
  {
    var d := Mz as real - 1.0;
    assert H * (k + 1) as real == H * k as real + H;
    assert (H * k as real + H) / d == H * k as real / d + H / d;
  }

  /** For a non-negative thickness, heights grow with the node index. */
  lemma GridZMonotone(b: real, H: real, Mz: int, k1: int, k2: int)
    requires Mz >= 2 && H >= 0.0 && k1 <= k2
    ensures GridZ(b, H, Mz, k1) <= GridZ(b, H, Mz, k2)
  {
    var d := Mz as real - 1.0;
    var z1, z2 := H * k1 as real / d, H * k2 as real / d;
    assert GridZ(b, H, Mz, k1) == b + z1;
    assert GridZ(b, H, Mz, k2) == b + z2;
    ScaledStepMonotone(H, k1 as real, k2 as real, d);
  }

  /** For a non-negative thickness the nodes `0 .. Mz-1` lie within
      `[b, b + H]`. */
  lemma GridZWithin(b: real, H: real, Mz: int, k: int)
    requires Mz >= 2 && H >= 0.0 && 0 <= k <= Mz - 1
    ensures b <= GridZ(b, H, Mz, k) <= b + H
  {
    GridZMonotone(b, H, Mz, 0, k);
    GridZMonotone(b, H, Mz, k, Mz - 1);
  }

  /** `H·x/d` grows with `x` for `H >= 0` and `d > 0`. */
  lemma ScaledStepMonotone(H: real, x: real, y: real, d: real)
    requires H >= 0.0 && d > 0.0 && x <= y
    ensures H * x / d <= H * y / d
  {
    MulMonotone(H, x, y);
    DivMonotone(H * x, H * y, d);
  }

  lemma MulMonotone(H: real, x: real, y: real)
    requires H >= 0.0 && x <= y
    ensures H * x <= H * y
  {
    assert H * y - H * x == H * (y - x);
  }

  lemma DivMonotone(x: real, y: real, d: real)
    requires d > 0.0 && x <= y
    ensures x / d <= y / d
  {
  }
}

=== FILE: intervals.dfy ===
/** The re-entrancy guard shared by time-stepping components: a component
    remembers the last interval `(t, dt)` it was asked to cover and treats a
    request for the same interval (to within 1e-12 on both numbers) as a no-op. */
module Intervals {
  import opened Outcomes
  import opened RealSeqs

  /** Absolute tolerance used when comparing requested times. */
  const Eps: real := 0.000000000001

  datatype Interval = Interval(t: real, dt: real)

  /** True when `(t, dt)` repeats the recorded interval. Before the first call
      nothing is recorded, and no request repeats it. */
  function Repeats(last: Option<Interval>, t: real, dt: real): (r: bool)
    ensures last.None? ==> !r
    ensures last == Some(Interval(t, dt)) ==> r
  {
    last.Some? && Abs(t - last.value.t) < Eps && Abs(dt - last.value.dt) < Eps
  }
}

=== FILE: lingle_clark.dfy ===
/** Scheduling of the Lingle-Clark bed deformation model.

    Each call asks the model to cover `[t, t + dt]`. The bed is deformed
    only when enough time has passed since the last deformation: at least
    the configured interval, or any non-negligible amount once the run has
    reached its end. A deformation covers everything since the last one and
    bumps the topography's state counter. The deformation itself (the
    Lingle-Clark solver) is not part of this model; a step is reported as
    the arguments it would be given. */
module LingleClark {
  import opened Outcomes
  import opened Intervals
  import opened RealSeqs

  /** The time the last deformation reached, the last requested interval
      and the topography state counter. */
  datatype State = State(last: Option<Interval>, tBeddefLast: real, topgCounter: nat)

  /** The configured deformation interval and the run's start and end. */
  datatype Schedule = Schedule(interval: real, tStart: real, tEnd: real)

  /** Arguments of one deformation: its length and the time since the start
      of the run at its end. */
  datatype BedStep = BedStep(length: real, elapsed: real)

  /** Too little time since the last deformation: less than the interval
      before the end of the run, or a negligible amount at any time. */
  predicate TooSoon(sched: Schedule, tFinal: real, sinceLast: real) {
    (sinceLast < sched.interval && tFinal < sched.tEnd) || sinceLast < Eps
  }

  /** One call: the new state and the deformation performed, if any. */
  function Update(s: State, sched: Schedule, t: real, dt: real): (r: (State, Option<BedStep>))
    ensures Repeats(s.last, t, dt) ==> r == (s, None)
    ensures !Repeats(s.last, t, dt) ==> r.0.last == Some(Interval(t, dt))
    ensures r.1.None? ==> r.0.tBeddefLast == s.tBeddefLast && r.0.topgCounter == s.topgCounter
    ensures r.1.Some? ==>
      && r.0.tBeddefLast == t + dt
      && r.0.topgCounter == s.topgCounter + 1
      && r.1.value.length == r.0.tBeddefLast - s.tBeddefLast
      && r.1.value.length >= Eps
      && r.1.value.elapsed == t + dt - sched.tStart
    ensures r.1.Some? ==> t + dt - s.tBeddefLast >= sched.interval || t + dt >= sched.tEnd
    ensures r.1.None? && !Repeats(s.last, t, dt) ==>
      (t + dt - s.tBeddefLast < sched.interval && t + dt < sched.tEnd) || t + dt - s.tBeddefLast < Eps
    ensures !Repeats(s.last, t, dt) && t + dt >= sched.tEnd && t + dt - s.tBeddefLast >= Eps ==> r.1.Some?
    ensures !Repeats(s.last, t, dt) && t + dt - s.tBeddefLast >= Max(sched.interval, Eps) ==> r.1.Some?
  {
    if Repeats(s.last, t, dt) then (s, None)
    else
      var recorded := s.(last := Some(Interval(t, dt)));
      var tFinal := t + dt;
      var sinceLast := tFinal - s.tBeddefLast;
      if TooSoon(sched, tFinal, sinceLast) then (recorded, None)
      else
        (recorded.(tBeddefLast := tFinal, topgCounter := s.topgCounter + 1),
         Some(BedStep(sinceLast, tFinal - sched.tStart)))
  }

  /** Repeating a call right away changes nothing and deforms nothing. */
  lemma UpdateIdempotent(s: State, sched: Schedule, t: real, dt: real)
    ensures Update(Update(s, sched, t, dt).0, sched, t, dt) == (Update(s, sched, t, dt).0, None)
  {
    var s1 := Update(s, sched, t, dt).0;
    assert Repeats(s1.last, t, dt) by {
      if !Repeats(s.last, t, dt) {
        assert s1.last == Some(Interval(t, dt));
      }
    }
  }

  /** A sequence of calls: the final state and the lengths of the
      deformations performed, in order. */
  function Run(s: State, sched: Schedule, calls: seq<Interval>): (r: (State, seq<real>))
    ensures |r.1| <= |calls|
    decreases |calls|
  {
    if |calls| == 0 then (s, [])
    else
      var (s1, step) := Update(s, sched, calls[0].t, calls[0].dt);
      var (s2, rest) := Run(s1, sched, calls[1..]);
      (s2, (if step.Some? then [step.value.length] else []) + rest)
  }

  /** Over any sequence of calls the deformations tile the time the bed
      has been moved forward: their lengths add up to the advance of
      `tBeddefLast`, each is positive, and each bumped the state counter
      once. */
  lemma {:induction false} RunTelescopes(s: State, sched: Schedule, calls: seq<Interval>)
    ensures SumSeq(Run(s, sched, calls).1) == Run(s, sched, calls).0.tBeddefLast - s.tBeddefLast
    ensures Run(s, sched, calls).0.topgCounter == s.topgCounter + |Run(s, sched, calls).1|
    ensures forall k :: 0 <= k < |Run(s, sched, calls).1| ==> Run(s, sched, calls).1[k] >= Eps
    decreases |calls|
  {
    if |calls| > 0 {
      var (s1, step) := Update(s, sched, calls[0].t, calls[0].dt);
      var first := if step.Some? then [step.value.length] else [];
      RunTelescopes(s1, sched, calls[1..]);
      SumSeqConcat(first, Run(s1, sched, calls[1..]).1);
      if step.Some? {
        assert SumSeq(first) == step.value.length by {
          assert first[..0] == [];
        }
      }
    }
  }
}

=== FILE: outcomes.dfy ===
/** Failure-compatible wrappers used across the model: a value that may be
    absent, and the outcome of an operation that may fail with an error. */
module Outcomes {

  datatype Option<+T> = None | Some(value: T)

  datatype Result<+T, +E> = Success(value: T) | Failure(error: E)
}

=== FILE: pressure.dfy ===
/** The pressure side of the distributed, linked-cavity subglacial hydrology
    model: the per-cell pressure update, the bounds check on pressure and
    the steady-state pressure formula.

    Water pressure P must stay within `[0, Po]`, Po being the overburden
    pressure of the ice. The power function of the C library is opaque and
    enters through the configuration. */
module Pressure {
  import opened Fields
  import opened Outcomes
  import opened RealSeqs
  import opened CellTypes

  /** Overshoot of P above Po tolerated when the upper bound is only checked. */
  const UpperTolerance: real := 0.001

  /** Physical constants of the model. */
  datatype Config = Config(
    n: real,                    // Glen flow-law exponent
    A: real,                    // ice softness
    c1: real,                   // cavitation opening coefficient
    c2: real,                   // creep closure coefficient
    Wr: real,                   // roughness scale
    phi0: real,                 // regularizing porosity
    rg: real,                   // water density times gravity
    pow: (real, real) -> real)  // the C library's power function, opaque
  {
    /** The divisors the formulas use are non-zero. */
    predicate Valid() {
      n != 0.0 && c2 * A != 0.0 && phi0 != 0.0
    }

    /** The power function is non-negative on non-negative bases, as the C
        library's `pow` is. */
    ghost predicate PowSigns() {
      forall x, e :: x >= 0.0 ==> pow(x, e) >= 0.0
    }
  }

  /** `x` projected onto `[a, b]`: `min(max(a, x), b)`. */
  function Clip(x: real, a: real, b: real): (r: real)
    ensures a <= b ==> a <= r <= b
    ensures a <= x <= b ==> r == x
    ensures x < a ==> r == Min(a, b)
    ensures x > b ==> r == b
  {
    Min(Max(a, x), b)
  }

  /** Clipping into a non-empty interval is idempotent. */
  lemma ClipIdempotent(x: real, a: real, b: real)
    requires a <= b
    ensures Clip(Clip(x, a, b), a, b) == Clip(x, a, b)
  {
  }

  // ---------------------------------------------------------------------
  // Bounds enforcer

  datatype PressureError =
    | NegativePressure(i: nat, j: nat, P: real)
    | ExceedsOverburden(i: nat, j: nat, P: real, Po: real)

  /** A cell value the bounds check rejects: negative pressure always, and
      pressure more than the tolerance above overburden unless the upper
      bound is being enforced. */
  predicate Violates(P: real, Po: real, enforceUpper: bool) {
    P < 0.0 || (!enforceUpper && P > Po + UpperTolerance)
  }

  /** The first cell, in sweep order from `(i, j)` on, that violates the
      bounds. */
  function FirstViolation(g: Grid, P: Field, Po: Field, enforceUpper: bool, i: nat, j: nat): (c: Option<(nat, nat)>)
    requires Shaped(P, g) && Shaped(Po, g)
    requires i <= g.Mx && j <= g.My
    decreases g.Mx - i, g.My - j
    ensures c.None? ==> forall a, b :: InGrid(g, a, b) && !Before(a, b, i, j) ==> !Violates(P[a][b], Po[a][b], enforceUpper)
    ensures c.Some? ==>
      && InGrid(g, c.value.0, c.value.1)
      && !Before(c.value.0, c.value.1, i, j)
      && Violates(P[c.value.0][c.value.1], Po[c.value.0][c.value.1], enforceUpper)
      && forall a, b :: InGrid(g, a, b) && !Before(a, b, i, j) && Before(a, b, c.value.0, c.value.1) ==>
           !Violates(P[a][b], Po[a][b], enforceUpper)
  {
    if i == g.Mx then None
    else if j == g.My then FirstViolation(g, P, Po, enforceUpper, i + 1, 0)
    else if Violates(P[i][j], Po[i][j], enforceUpper) then Some((i, j))
    else FirstViolation(g, P, Po, enforceUpper, i, j + 1)
  }

  /** The pointwise minimum of two fields. */
  function FieldMin(g: Grid, a: Field, b: Field): (r: Field)
    requires Shaped(a, g) && Shaped(b, g)
    ensures Shaped(r, g)
    ensures forall i, j :: InGrid(g, i, j) ==> r[i][j] == Min(a[i][j], b[i][j])
  {
    seq(g.Mx, i requires 0 <= i < g.Mx => seq(g.My, j requires 0 <= j < g.My => Min(a[i][j], b[i][j])))
  }

  /** Checks `0 <= P <= Po` over the grid, or, with `enforceUpper`, checks
      `0 <= P` and replaces P by `min(P, Po)`. The error names the first
      offending cell of the sweep. */
  function CheckPBounds(g: Grid, P: Field, Po: Field, enforceUpper: bool): (r: Result<Field, PressureError>)
    requires Shaped(P, g) && Shaped(Po, g)
    ensures r.Success? <==>
      forall i, j :: InGrid(g, i, j) ==> P[i][j] >= 0.0 && (enforceUpper || P[i][j] <= Po[i][j] + UpperTolerance)
    ensures r.Success? && enforceUpper ==>
      Shaped(r.value, g) && forall i, j :: InGrid(g, i, j) ==> r.value[i][j] == Min(P[i][j], Po[i][j])
    ensures r.Success? && !enforceUpper ==> r.value == P
    ensures r.Failure? ==>
      var e := r.error;
      && InGrid(g, e.i, e.j)
      && e.P == P[e.i][e.j]
      && (e.NegativePressure? <==> P[e.i][e.j] < 0.0)
      && (e.ExceedsOverburden? ==> !enforceUpper && e.P > Po[e.i][e.j] + UpperTolerance && e.Po == Po[e.i][e.j])
      && forall a, b :: InGrid(g, a, b) && Before(a, b, e.i, e.j) ==> !Violates(P[a][b], Po[a][b], enforceUpper)
  {
    match FirstViolation(g, P, Po, enforceUpper, 0, 0)
    case Some((i, j)) =>
      if P[i][j] < 0.0 then Failure(NegativePressure(i, j, P[i][j]))
      else Failure(ExceedsOverburden(i, j, P[i][j], Po[i][j]))
    case None =>
      Success(if enforceUpper then FieldMin(g, P, Po) else P)
  }

  /** `0 <= P <= Po` everywhere. */
  ghost predicate WithinBounds(g: Grid, P: Field, Po: Field)
    requires Shaped(P, g) && Shaped(Po, g)
  {
    forall i, j :: InGrid(g, i, j) ==> 0.0 <= P[i][j] <= Po[i][j]
  }

  /** A pressure already within `[0, Po]` passes the check in both modes and
      comes back unchanged, so the mode only matters on the first sub-step. */
  lemma CheckAcceptsBoundedPressure(g: Grid, P: Field, Po: Field, enforceUpper: bool)
    requires Shaped(P, g) && Shaped(Po, g)
    requires WithinBounds(g, P, Po)
    ensures CheckPBounds(g, P, Po, enforceUpper) == Success(P)
  {
    var r := CheckPBounds(g, P, Po, enforceUpper);
    if enforceUpper {
      assert r.Success?;
      forall i | 0 <= i < g.Mx
        ensures r.value[i] == P[i]
      {
        assert forall j :: 0 <= j < g.My ==> r.value[i][j] == P[i][j];
      }
      assert r.value == P;
    }
  }

  // ---------------------------------------------------------------------
  // Pressure update rule

  /** Everything the update reads at one cell. */
  datatype CellInputs = CellInputs(
    P: real,          // current pressure
    Po: real,         // overburden pressure
    speed: real,      // ice sliding speed
    input: real,      // water input rate
    Wtil: real,       // till water before the step
    WtilNew: real,    // till water after the step
    w: Star<real>,    // water thickness at the cell and its neighbours
    ws: Quad,         // staggered water thickness on the four faces
    k: Quad,          // conductivity on the four faces
    q: Quad)          // advective flux on the four faces

  /** Cavity opening by sliding over bed roughness; none once W reaches the
      roughness scale. */
  function Opening(cfg: Config, speed: real, W: real): (r: real)
    ensures cfg.c1 >= 0.0 && speed >= 0.0 ==> r >= 0.0
    ensures W >= cfg.Wr ==> r == 0.0
  {
    cfg.c1 * speed * Max(0.0, cfg.Wr - W)
  }

  /** Creep closure of cavities, a power law in effective pressure. It
      vanishes without water and is non-negative when the power of the
      effective pressure is. */
  function Closing(cfg: Config, Po: real, P: real, W: real): (r: real)
    ensures W == 0.0 ==> r == 0.0
    ensures cfg.c2 * cfg.A >= 0.0 && W >= 0.0 && cfg.pow(Po - P, cfg.n) >= 0.0 ==> r >= 0.0
  {
    var k := cfg.c2 * cfg.A;
    var p := cfg.pow(Po - P, cfg.n);
    assert k >= 0.0 && p >= 0.0 ==> k * p >= 0.0;
    assert k * p >= 0.0 && W >= 0.0 ==> k * p * W >= 0.0;
    k * p * W
  }

  /** Net advective outflow through the four faces. */
  function AdvectiveDivergence(g: Grid, q: Quad): (r: real)
    requires g.Valid()
    ensures q.e == q.w && q.n == q.s ==> r == 0.0
  {
    (q.e - q.w) / g.dx + (q.n - q.s) / g.dy
  }

  /** Diffusion of water thickness with face conductances `rg·K·Ws`. */
  function Diffusion(g: Grid, cfg: Config, w: Star<real>, k: Quad, ws: Quad): (r: real)
    requires g.Valid()
    ensures w.e == w.ij && w.w == w.ij && w.n == w.ij && w.s == w.ij ==> r == 0.0
  {
    var wux := 1.0 / (g.dx * g.dx);
    var wuy := 1.0 / (g.dy * g.dy);
    var De := cfg.rg * k.e * ws.e;
    var Dw := cfg.rg * k.w * ws.w;
    var Dn := cfg.rg * k.n * ws.n;
    var Ds := cfg.rg * k.s * ws.s;
    wux * (De * (w.e - w.ij) - Dw * (w.ij - w.w)) + wuy * (Dn * (w.n - w.ij) - Ds * (w.ij - w.s))
  }

  /** Net rate of pressure-forcing water supply at one cell: flux
      divergence and diffusion, creep closure less cavity opening, input,
      less the rate of storage in till. */
  function NetRate(g: Grid, cfg: Config, dt: real, c: CellInputs): real
    requires g.Valid() && dt != 0.0
  {
    var divflux := -AdvectiveDivergence(g, c.q) + Diffusion(g, cfg, c.w, c.k, c.ws);
    var ZZ := Closing(cfg, c.Po, c.P, c.w.ij) - Opening(cfg, c.speed, c.w.ij) + c.input - (c.WtilNew - c.Wtil) / dt;
    divflux + ZZ
  }

  /** The pressure the explicit step gives before projection:
      `P + CC·(divflux + ZZ)` with `CC = rg·dt/phi0`. */
  function UnclippedP(g: Grid, cfg: Config, dt: real, c: CellInputs): (r: real)
    requires g.Valid() && cfg.Valid() && dt != 0.0
    ensures Balanced(g, cfg, dt, c) ==> r == c.P
  {
    var CC := cfg.rg * dt / cfg.phi0;
    c.P + CC * NetRate(g, cfg, dt, c)
  }

  /** A cell at which every process of the pressure equation cancels:
      uniform water thickness, balanced fluxes, no till-water change, and
      closure plus input equal to opening. */
  predicate Balanced(g: Grid, cfg: Config, dt: real, c: CellInputs)
    requires g.Valid() && dt != 0.0
  {
    && c.w.e == c.w.ij && c.w.w == c.w.ij && c.w.n == c.w.ij && c.w.s == c.w.ij
    && c.q.e == c.q.w && c.q.n == c.q.s
    && c.WtilNew == c.Wtil
    && Closing(cfg, c.Po, c.P, c.w.ij) + c.input == Opening(cfg, c.speed, c.w.ij)
  }

  /** More water input gives a higher unclipped pressure, all else equal,
      when `rg·dt/phi0` is positive. */
  lemma UnclippedPGrowsWithInput(g: Grid, cfg: Config, dt: real, c: CellInputs, more: real)
    requires g.Valid() && cfg.Valid() && dt != 0.0
    requires cfg.rg * dt / cfg.phi0 > 0.0 && more > c.input
    ensures UnclippedP(g, cfg, dt, c) < UnclippedP(g, cfg, dt, c.(input := more))
  {
    UnclippedPInput(g, cfg, dt, c, more);
    PositiveProduct(cfg.rg * dt / cfg.phi0, more - c.input);
  }

  /** Raising the input by `d` raises the unclipped pressure by `CC·d`. */
  lemma UnclippedPInput(g: Grid, cfg: Config, dt: real, c: CellInputs, more: real)
    requires g.Valid() && cfg.Valid() && dt != 0.0
    ensures UnclippedP(g, cfg, dt, c.(input := more))
         == UnclippedP(g, cfg, dt, c) + cfg.rg * dt / cfg.phi0 * (more - c.input)
  {
    NetRateInput(g, cfg, dt, c, more);
    ScaleShift(c.P, cfg.rg * dt / cfg.phi0, NetRate(g, cfg, dt, c), more - c.input);
  }

  lemma ScaleShift(p: real, k: real, a: real, d: real)
    ensures p + k * (a + d) == (p + k * a) + k * d
  {
  }

  lemma PositiveProduct(a: real, b: real)
    requires a > 0.0 && b > 0.0
    ensures a * b > 0.0
  {
  }

  /** The input enters the net rate one for one. */
  lemma NetRateInput(g: Grid, cfg: Config, dt: real, c: CellInputs, more: real)
    requires g.Valid() && dt != 0.0
    ensures NetRate(g, cfg, dt, c.(input := more)) == NetRate(g, cfg, dt, c) + (more - c.input)
  {
    var c' := c.(input := more);
    var closing, opening := Closing(cfg, c.Po, c.P, c.w.ij), Opening(cfg, c.speed, c.w.ij);
    var divflux := -AdvectiveDivergence(g, c.q) + Diffusion(g, cfg, c.w, c.k, c.ws);
    var till := (c.WtilNew - c.Wtil) / dt;
    assert NetRate(g, cfg, dt, c) == divflux + (closing - opening + c.input - till);
    assert NetRate(g, cfg, dt, c') == divflux + (closing - opening + more - till);
  }

  lemma ScaleKeepsOrder(k: real, a: real, b: real)
    requires k > 0.0 && a < b
    ensures k * a < k * b
  {
    assert k * b - k * a == k * (b - a);
  }

  lemma ScaleKeepsOrderWeak(k: real, a: real, b: real)
    requires k > 0.0 && a <= b
    ensures k * a <= k * b
  {
    if a < b {
      ScaleKeepsOrder(k, a, b);
    }
  }

  /** A cell whose pressure is evolved: neither ice-free land nor ocean, and
      holding water. */
  predicate Wet(ct: CellType, W: real) {
    !ct.IceFreeLand() && !ct.Ocean() && W > 0.0
  }

  /** New pressure at one cell. Ice-free land gets 0; ocean cells and dry
      cells get overburden; a wet cell takes the explicit step, projected
      onto `[0, Po]`. */
  function PNew(g: Grid, cfg: Config, dt: real, ct: CellType, c: CellInputs): (r: real)
    requires g.Valid() && cfg.Valid() && dt != 0.0
    ensures ct.IceFreeLand() ==> r == 0.0
    ensures ct.Ocean() ==> r == c.Po
    ensures !ct.IceFreeLand() && !ct.Ocean() && c.w.ij <= 0.0 ==> r == c.Po
    ensures Wet(ct, c.w.ij) ==>
      var u := UnclippedP(g, cfg, dt, c);
      && (0.0 <= u <= c.Po ==> r == u)
      && (u < 0.0 ==> r == Min(0.0, c.Po))
      && (u > c.Po ==> r == c.Po)
    ensures c.Po >= 0.0 ==> 0.0 <= r <= c.Po
  {
    if ct.IceFreeLand() then 0.0
    else if ct.Ocean() then c.Po
    else if c.w.ij <= 0.0 then c.Po
    else Clip(UnclippedP(g, cfg, dt, c), 0.0, c.Po)
  }

  /** One cell of the end-to-end scenario: uniform water, no sliding, no
      input, no till-water change and balanced fluxes leave creep closure as
      the only process, so the pressure rises towards overburden without
      passing it. */
  lemma CreepClosureRaisesPressure(g: Grid, cfg: Config, dt: real, ct: CellType, c: CellInputs)
    requires g.Valid() && cfg.Valid() && dt > 0.0
    requires cfg.rg > 0.0 && cfg.phi0 > 0.0 && cfg.c2 * cfg.A > 0.0
    requires ct == GroundedIce
    requires c.w == Star(0.1, 0.1, 0.1, 0.1, 0.1)
    requires c.Po == 100000.0 && c.P == 50000.0
    requires c.speed == 0.0 && c.input == 0.0 && c.WtilNew == c.Wtil
    requires c.q.e == c.q.w && c.q.n == c.q.s
    requires cfg.pow(c.Po - c.P, cfg.n) > 0.0
    ensures c.P < PNew(g, cfg, dt, ct, c) <= c.Po
  {
    var CC := cfg.rg * dt / cfg.phi0;
    var close := Closing(cfg, c.Po, c.P, c.w.ij);
    assert Opening(cfg, c.speed, c.w.ij) == 0.0;
    assert close > 0.0 by {
      var p := cfg.pow(c.Po - c.P, cfg.n);
      assert cfg.c2 * cfg.A * p > 0.0;
    }
    assert CC > 0.0;
    assert UnclippedP(g, cfg, dt, c) == c.P + CC * close;
    assert CC * close > 0.0;
  }

  // ---------------------------------------------------------------------
  // Whole-field update

  /** Fields supplied by the caller, fixed during one outer update. */
  datatype Forcing = Forcing(mask: Mask, speed: Field, input: Field, Po: Field) {
    predicate Shaped(g: Grid) {
      Fields.Shaped(mask, g) && Fields.Shaped(speed, g) && Fields.Shaped(input, g) && Fields.Shaped(Po, g)
    }
  }

  /** The persistent model state: water thickness, till water, pressure. */
  datatype Water = Water(W: Field, Wtil: Field, P: Field) {
    predicate Shaped(g: Grid) {
      Fields.Shaped(W, g) && Fields.Shaped(Wtil, g) && Fields.Shaped(P, g)
    }
  }

  /** Staggered thickness, conductivity and advective flux. */
  datatype Transport = Transport(Ws: seq<seq<Faces>>, K: seq<seq<Faces>>, Q: seq<seq<Faces>>) {
    predicate Shaped(g: Grid) {
      Fields.Shaped(Ws, g) && Fields.Shaped(K, g) && Fields.Shaped(Q, g)
    }
  }

  function CellInputsAt(g: Grid, f: Forcing, s: Water, WtilNew: Field, tr: Transport, i: int, j: int): CellInputs
    requires g.Valid() && f.Shaped(g) && s.Shaped(g) && Shaped(WtilNew, g) && tr.Shaped(g)
    requires InGrid(g, i, j)
  {
    CellInputs(s.P[i][j], f.Po[i][j], f.speed[i][j], f.input[i][j], s.Wtil[i][j], WtilNew[i][j],
               StarAt(g, s.W, i, j), QuadAt(g, tr.Ws, i, j), QuadAt(g, tr.K, i, j), QuadAt(g, tr.Q, i, j))
  }

  /** The new pressure field, computed from the pre-step state only. Where
      overburden is non-negative the result lies within `[0, Po]`. */
  function UpdateP(g: Grid, cfg: Config, dt: real, f: Forcing, s: Water, WtilNew: Field, tr: Transport): (r: Field)
    requires g.Valid() && cfg.Valid() && dt != 0.0
    requires f.Shaped(g) && s.Shaped(g) && Shaped(WtilNew, g) && tr.Shaped(g)
    ensures Shaped(r, g)
    ensures forall i, j :: InGrid(g, i, j) ==> r[i][j] == PNew(g, cfg, dt, f.mask[i][j], CellInputsAt(g, f, s, WtilNew, tr, i, j))
    ensures forall i, j :: InGrid(g, i, j) && f.Po[i][j] >= 0.0 ==> 0.0 <= r[i][j] <= f.Po[i][j]
  {
    seq(g.Mx, i requires 0 <= i < g.Mx =>
      seq(g.My, j requires 0 <= j < g.My =>
        PNew(g, cfg, dt, f.mask[i][j], CellInputsAt(g, f, s, WtilNew, tr, i, j))))
  }

  // ---------------------------------------------------------------------
  // Steady state

  /** The sliding term `(c1·|v_b| / (c2·A))^(1/n)` of the steady formula. */
  function SlidingTerm(cfg: Config, speed: real): (sb: real)
    requires cfg.Valid()
    ensures cfg.PowSigns() && cfg.c1 >= 0.0 && cfg.c2 * cfg.A > 0.0 && speed >= 0.0 ==> sb >= 0.0
  {
    var CC := cfg.c1 / (cfg.c2 * cfg.A);
    assert cfg.c1 >= 0.0 && cfg.c2 * cfg.A > 0.0 && speed >= 0.0 ==> CC >= 0.0 && CC * speed >= 0.0;
    cfg.pow(CC * speed, 1.0 / cfg.n)
  }

  /** The water term `(max(0, Wr - W) / W)^(1/n)` of the steady formula;
      once `W` reaches the roughness scale its base is 0. */
  function WaterTerm(cfg: Config, W: real): (p: real)
    requires cfg.Valid() && W != 0.0
    ensures cfg.PowSigns() && W > 0.0 ==> p >= 0.0
    ensures W >= cfg.Wr ==> p == cfg.pow(0.0, 1.0 / cfg.n)
  {
    var ratio := Max(0.0, cfg.Wr - W) / W;
    assert W > 0.0 ==> ratio >= 0.0;
    cfg.pow(ratio, 1.0 / cfg.n)
  }

  /** Pressure in steady state at one cell, where cavity opening by sliding
      balances creep closure: with no water, 0 if there is cavitation and
      overburden otherwise; with water, overburden reduced by the opening
      term, but never below 0. */
  function SteadyP(cfg: Config, W: real, Po: real, speed: real): (r: real)
    requires cfg.Valid()
    ensures W == 0.0 && SlidingTerm(cfg, speed) > 0.0 ==> r == 0.0
    ensures W == 0.0 && SlidingTerm(cfg, speed) <= 0.0 ==> r == Po
    ensures W != 0.0 ==> r >= 0.0 && r >= Po - SlidingTerm(cfg, speed) * WaterTerm(cfg, W)
    ensures W != 0.0 ==> r == 0.0 || r == Po - SlidingTerm(cfg, speed) * WaterTerm(cfg, W)
    ensures W != 0.0 && WaterTerm(cfg, W) == 0.0 && Po >= 0.0 ==> r == Po
    ensures W != 0.0 && Po >= 0.0 && SlidingTerm(cfg, speed) >= 0.0 && WaterTerm(cfg, W) >= 0.0 ==> r <= Po
  {
    var sb := SlidingTerm(cfg, speed);
    if W == 0.0 then
      (if sb > 0.0 then 0.0 else Po)
    else
      var p := WaterTerm(cfg, W);
      assert sb >= 0.0 && p >= 0.0 ==> sb * p >= 0.0;
      Max(0.0, Po - sb * p)
  }

  /** When `pow` is non-negative on non-negative bases and the coefficients,
      water thickness and sliding speed are non-negative, the steady
      pressure lies within `[0, Po]`. */
  lemma SteadyPWithinBounds(cfg: Config, W: real, Po: real, speed: real)
    requires cfg.Valid() && cfg.PowSigns() && Po >= 0.0
    requires cfg.c1 >= 0.0 && cfg.c2 * cfg.A > 0.0 && W >= 0.0 && speed >= 0.0
    ensures 0.0 <= SteadyP(cfg, W, Po, speed) <= Po
  {
    if W != 0.0 {
      assert SlidingTerm(cfg, speed) >= 0.0;
      assert WaterTerm(cfg, W) >= 0.0;
    }
  }

  /** The steady pressure of every cell. */
  function PFromWSteady(g: Grid, cfg: Config, W: Field, Po: Field, speed: Field): (r: Field)
    requires cfg.Valid() && Shaped(W, g) && Shaped(Po, g) && Shaped(speed, g)
    ensures Shaped(r, g)
    ensures forall i, j :: InGrid(g, i, j) ==> r[i][j] == SteadyP(cfg, W[i][j], Po[i][j], speed[i][j])
  {
    seq(g.Mx, i requires 0 <= i < g.Mx =>
      seq(g.My, j requires 0 <= j < g.My => SteadyP(cfg, W[i][j], Po[i][j], speed[i][j])))
  }

  /** Diffusive time-step bound for pressure, derived from the one for water
      thickness. */
  function MaxTimestepPDiff(phi0: real, dtDiffW: real): (r: real)
    ensures phi0 > 0.0 && dtDiffW > 0.0 ==> r > 0.0
  {
    2.0 * phi0 * dtDiffW
  }
}

=== FILE: real_seqs.dfy ===
/** Sums, means and extrema of finite sequences of reals, in exact arithmetic. */
module RealSeqs {

  function Min(a: real, b: real): (r: real)
    ensures r <= a && r <= b
    ensures r == a || r == b
  {
    if a <= b then a else b
  }

  function Max(a: real, b: real): (r: real)
    ensures r >= a && r >= b
    ensures r == a || r == b
  {
    if a >= b then a else b
  }

  function Abs(x: real): (r: real)
    ensures r >= 0.0
    ensures r == x || r == -x
  {
    if x < 0.0 then -x else x
  }

  /** Sum of a sequence, accumulated from the front as a loop would. */
  function SumSeq(s: seq<real>): real
  {
    if |s| == 0 then 0.0 else SumSeq(s[..|s| - 1]) + s[|s| - 1]
  }

  lemma SumSeqAppend(s: seq<real>, x: real)
    ensures SumSeq(s + [x]) == SumSeq(s) + x
  {
    assert (s + [x])[..|s|] == s;
  }

  /** Sum distributes over concatenation. */
  lemma {:induction false} SumSeqConcat(a: seq<real>, b: seq<real>)
    ensures SumSeq(a + b) == SumSeq(a) + SumSeq(b)
    decreases |b|
  {
    if |b| == 0 {
      assert a + b == a;
    } else {
      var b' := b[..|b| - 1];
      assert a + b == (a + b') + [b[|b| - 1]];
      assert b == b' + [b[|b| - 1]];
      SumSeqAppend(a + b', b[|b| - 1]);
      SumSeqAppend(b', b[|b| - 1]);
      SumSeqConcat(a, b');
    }
  }

  /** A sum of values bounded by `lo` and `hi` lies between `|s|·lo` and
      `|s|·hi`, strictly when the bounds are strict and `s` is non-empty. */
  lemma {:induction false} SumSeqBounds(s: seq<real>, lo: real, hi: real)
    requires forall k :: 0 <= k < |s| ==> lo <= s[k] <= hi
    ensures |s| as real * lo <= SumSeq(s) <= |s| as real * hi
  {
    if |s| > 0 {
      var s' := s[..|s| - 1];
      SumSeqBounds(s', lo, hi);
      assert |s| as real * lo == |s'| as real * lo + lo;
      assert |s| as real * hi == |s'| as real * hi + hi;
    }
  }

  lemma {:induction false} SumSeqStrictLower(s: seq<real>, lo: real)
    requires |s| > 0
    requires forall k :: 0 <= k < |s| ==> lo < s[k]
    ensures |s| as real * lo < SumSeq(s)
  {
    var s' := s[..|s| - 1];
    if |s'| > 0 {
      SumSeqStrictLower(s', lo);
    }
    assert |s| as real * lo == |s'| as real * lo + lo;
  }

  /** Arithmetic mean of a non-empty sequence. */
  function Mean(s: seq<real>): real
    requires |s| > 0
  {
    SumSeq(s) / |s| as real
  }

  /** The mean lies between any lower and upper bound of the values. */
  lemma MeanBetween(s: seq<real>, lo: real, hi: real)
    requires |s| > 0
    requires forall k :: 0 <= k < |s| ==> lo <= s[k] <= hi
    ensures lo <= Mean(s) <= hi
  {
    SumSeqBounds(s, lo, hi);
    var n := |s| as real;
    assert SumSeq(s) / n >= lo by {
      assert n * lo <= SumSeq(s);
    }
    assert SumSeq(s) / n <= hi by {
      assert SumSeq(s) <= n * hi;
    }
  }

  /** The mean of values all above `lo` is above `lo`. */
  lemma MeanAbove(s: seq<real>, lo: real)
    requires |s| > 0
    requires forall k :: 0 <= k < |s| ==> lo < s[k]
    ensures lo < Mean(s)
  {
    SumSeqStrictLower(s, lo);
  }

  /** The number of set flags. */
  function CountKept(keep: seq<bool>): nat {
    if |keep| == 0 then 0 else (if keep[0] then 1 else 0) + CountKept(keep[1..])
  }

  /** The sum of the values whose flag is set, accumulated front to back. */
  function SumKept(s: seq<real>, keep: seq<bool>): real
    requires |s| == |keep|
  {
    if |s| == 0 then 0.0 else (if keep[0] then s[0] else 0.0) + SumKept(s[1..], keep[1..])
  }

  /** `SumKept` of four values, written out. */
  lemma SumKeptFour(s: seq<real>, keep: seq<bool>)
    requires |s| == 4 && |keep| == 4
    ensures SumKept(s, keep) ==
      (if keep[0] then s[0] else 0.0) + (if keep[1] then s[1] else 0.0)
      + (if keep[2] then s[2] else 0.0) + (if keep[3] then s[3] else 0.0)
  {
    var s1, k1 := s[1..], keep[1..];
    var s2, k2 := s1[1..], k1[1..];
    var s3, k3 := s2[1..], k2[1..];
    assert SumKept(s3, k3) == (if k3[0] then s3[0] else 0.0) + SumKept(s3[1..], k3[1..]);
    assert SumKept(s2, k2) == (if k2[0] then s2[0] else 0.0) + SumKept(s3, k3);
    assert SumKept(s1, k1) == (if k1[0] then s1[0] else 0.0) + SumKept(s2, k2);
  }

  /** The mean of the kept values is their sum over their count. */
  lemma MeanOfSelect(s: seq<real>, keep: seq<bool>)
    requires |s| == |keep| && CountKept(keep) > 0
    ensures Mean(Select(s, keep)) == SumKept(s, keep) / CountKept(keep) as real
  {
    SelectSum(s, keep);
  }

  /** The values of `s` whose flag in `keep` is set, in order. */
  function Select(s: seq<real>, keep: seq<bool>): (r: seq<real>)
    requires |s| == |keep|
    ensures |r| <= |s|
    ensures |r| == CountKept(keep)
    ensures forall x :: x in r ==> x in s
    ensures (exists k :: 0 <= k < |s| && keep[k]) <==> |r| > 0
  {
    if |s| == 0 then []
    else (if keep[0] then [s[0]] else []) + Select(s[1..], keep[1..])
  }

  /** Every selected value satisfies the selection. */
  lemma {:induction false} SelectKeeps(s: seq<real>, keep: seq<bool>, p: real -> bool)
    requires |s| == |keep|
    requires forall k :: 0 <= k < |s| && keep[k] ==> p(s[k])
    ensures forall x :: x in Select(s, keep) ==> p(x)
  {
    if |s| > 0 {
      SelectKeeps(s[1..], keep[1..], p);
    }
  }

  /** The selection reads only the kept positions. */
  lemma {:induction false} SelectAgree(s: seq<real>, t: seq<real>, keep: seq<bool>)
    requires |s| == |keep| && |t| == |keep|
    requires forall k :: 0 <= k < |keep| && keep[k] ==> s[k] == t[k]
    ensures Select(s, keep) == Select(t, keep)
  {
    if |s| > 0 {
      SelectAgree(s[1..], t[1..], keep[1..]);
    }
  }

  /** The selected values add up to the sum of the kept values. */
  lemma {:induction false} SelectSum(s: seq<real>, keep: seq<bool>)
    requires |s| == |keep|
    ensures SumSeq(Select(s, keep)) == SumKept(s, keep)
  {
    if |s| > 0 {
      SelectSum(s[1..], keep[1..]);
      var head := if keep[0] then [s[0]] else [];
      SumSeqConcat(head, Select(s[1..], keep[1..]));
      if keep[0] {
        assert SumSeq(head) == s[0] by { assert head[..0] == []; }
      }
    }
  }

  /** Every selected value is the value at some kept position. */
  lemma {:induction false} SelectFrom(s: seq<real>, keep: seq<bool>)
    requires |s| == |keep|
    ensures forall x :: x in Select(s, keep) ==> exists k :: 0 <= k < |s| && keep[k] && s[k] == x
  {
    if |s| > 0 {
      SelectFrom(s[1..], keep[1..]);
      forall x | x in Select(s, keep)
        ensures exists k :: 0 <= k < |s| && keep[k] && s[k] == x
      {
        if keep[0] && x == s[0] {
          assert keep[0] && s[0] == x;
        } else {
          assert x in Select(s[1..], keep[1..]);
          var k :| 0 <= k < |s[1..]| && keep[1..][k] && s[1..][k] == x;
          assert keep[k + 1] && s[k + 1] == x;
        }
      }
    }
  }
}

=== FILE: scalar_field.dfy ===
/** Operations on scalar grid fields: masking, whole-field reductions and
    finite-difference derivatives that respect the grid's edges. */
module ScalarField {
  import opened Fields
  import opened RealSeqs

  /** Sets every cell where the mask `M` is at most 0 to `fill`. */
  function ApplyMask(g: Grid, M: Field, fill: real, f: Field): (r: Field)
    requires Shaped(M, g) && Shaped(f, g)
    ensures Shaped(r, g)
    ensures forall i, j :: InGrid(g, i, j) && M[i][j] <= 0.0 ==> r[i][j] == fill
    ensures forall i, j :: InGrid(g, i, j) && M[i][j] > 0.0 ==> r[i][j] == f[i][j]
  {
    seq(g.Mx, i requires 0 <= i < g.Mx =>
      seq(g.My, j requires 0 <= j < g.My => if M[i][j] <= 0.0 then fill else f[i][j]))
  }

  /** Masking twice with the same mask and fill value changes nothing more. */
  lemma ApplyMaskIdempotent(g: Grid, M: Field, fill: real, f: Field)
    requires Shaped(M, g) && Shaped(f, g)
    ensures ApplyMask(g, M, fill, ApplyMask(g, M, fill, f)) == ApplyMask(g, M, fill, f)
  {
    var once := ApplyMask(g, M, fill, f);
    var twice := ApplyMask(g, M, fill, once);
    forall i | 0 <= i < g.Mx
      ensures twice[i] == once[i]
    {
      assert forall j :: 0 <= j < g.My ==> twice[i][j] == once[i][j];
    }
  }

  /** The cells of a field in the order a sweep visits them (row `i` after
      row `i-1`). */
  function Flatten(f: Field): seq<real>
  {
    if |f| == 0 then [] else Flatten(f[..|f| - 1]) + f[|f| - 1]
  }

  lemma FlattenStep(f: Field, i: nat)
    requires i < |f|
    ensures Flatten(f[..i + 1]) == Flatten(f[..i]) + f[i]
  {
    assert f[..i + 1][..i] == f[..i];
  }

  /** The sum of all owned cells. */
  method Sum(g: Grid, f: Field) returns (total: real)
    requires Shaped(f, g)
    ensures total == SumSeq(Flatten(f))
  {
    total := 0.0;
    var i := 0;
    while i < g.Mx
      invariant 0 <= i <= g.Mx
      invariant total == SumSeq(Flatten(f[..i]))
    {
      var j := 0;
      while j < g.My
        invariant 0 <= j <= g.My
        invariant total == SumSeq(Flatten(f[..i])) + SumSeq(f[i][..j])
      {
        assert f[i][..j + 1] == f[i][..j] + [f[i][j]];
        SumSeqAppend(f[i][..j], f[i][j]);
        total := total + f[i][j];
        j := j + 1;
      }
      assert f[i][..j] == f[i];
      FlattenStep(f, i);
      SumSeqConcat(Flatten(f[..i]), f[i]);
      i := i + 1;
    }
    assert f[..i] == f;
  }

  /** The largest value of a non-empty field; the sweep starts from the
      first owned cell. */
  method Max(g: Grid, f: Field) returns (m: real)
    requires g.Mx > 0 && g.My > 0 && Shaped(f, g)
    ensures forall i, j :: InGrid(g, i, j) ==> f[i][j] <= m
    ensures exists i, j :: InGrid(g, i, j) && f[i][j] == m
  {
    m := f[0][0];
    ghost var wi, wj := 0, 0;
    var i := 0;
    while i < g.Mx
      invariant 0 <= i <= g.Mx
      invariant InGrid(g, wi, wj) && f[wi][wj] == m
      invariant forall a, b :: InGrid(g, a, b) && a < i ==> f[a][b] <= m
    {
      var j := 0;
      while j < g.My
        invariant 0 <= j <= g.My
        invariant InGrid(g, wi, wj) && f[wi][wj] == m
        invariant forall a, b :: InGrid(g, a, b) && Before(a, b, i, j) ==> f[a][b] <= m
      {
        if m < f[i][j] {
          wi, wj := i, j;
        }
        m := RealSeqs.Max(m, f[i][j]);
        j := j + 1;
      }
      i := i + 1;
    }
  }

  /** The smallest value of a non-empty field. */
  method Min(g: Grid, f: Field) returns (m: real)
    requires g.Mx > 0 && g.My > 0 && Shaped(f, g)
    ensures forall i, j :: InGrid(g, i, j) ==> m <= f[i][j]
    ensures exists i, j :: InGrid(g, i, j) && f[i][j] == m
  {
    m := f[0][0];
    ghost var wi, wj := 0, 0;
    var i := 0;
    while i < g.Mx
      invariant 0 <= i <= g.Mx
      invariant InGrid(g, wi, wj) && f[wi][wj] == m
      invariant forall a, b :: InGrid(g, a, b) && a < i ==> m <= f[a][b]
    {
      var j := 0;
      while j < g.My
        invariant 0 <= j <= g.My
        invariant InGrid(g, wi, wj) && f[wi][wj] == m
        invariant forall a, b :: InGrid(g, a, b) && Before(a, b, i, j) ==> m <= f[a][b]
      {
        if f[i][j] < m {
          wi, wj := i, j;
        }
        m := RealSeqs.Min(m, f[i][j]);
        j := j + 1;
      }
      i := i + 1;
    }
  }

  /** The largest absolute value; the sweep starts from 0, so an empty field
      gives 0. */
  method AbsMax(g: Grid, f: Field) returns (m: real)
    requires Shaped(f, g)
    ensures m >= 0.0
    ensures forall i, j :: InGrid(g, i, j) ==> Abs(f[i][j]) <= m
    ensures m == 0.0 || exists i, j :: InGrid(g, i, j) && Abs(f[i][j]) == m
  {
    m := 0.0;
    var i := 0;
    while i < g.Mx
      invariant 0 <= i <= g.Mx
      invariant m >= 0.0
      invariant m == 0.0 || exists a, b :: InGrid(g, a, b) && Abs(f[a][b]) == m
      invariant forall a, b :: InGrid(g, a, b) && a < i ==> Abs(f[a][b]) <= m
    {
      var j := 0;
      while j < g.My
        invariant 0 <= j <= g.My
        invariant m >= 0.0
        invariant m == 0.0 || exists a, b :: InGrid(g, a, b) && Abs(f[a][b]) == m
        invariant forall a, b :: InGrid(g, a, b) && Before(a, b, i, j) ==> Abs(f[a][b]) <= m
      {
        m := RealSeqs.Max(m, Abs(f[i][j]));
        j := j + 1;
      }
      i := i + 1;
    }
  }

  /** Centred x-derivative; at the domain edge it reads a ghost cell. */
  function DiffX(g: Grid, f: Field, i: int, j: int): (d: real)
    requires g.Valid() && Shaped(f, g) && InGrid(g, i, j)
    ensures var s := EdgeAwareDifference(true, g.Mx, i);
      d == (At(g, f, s.hi, j) - At(g, f, s.lo, j)) / ((s.hi - s.lo) as real * g.dx)
  {
    (At(g, f, i + 1, j) - At(g, f, i - 1, j)) / (2.0 * g.dx)
  }

  /** Centred y-derivative; at the domain edge it reads a ghost cell. */
  function DiffY(g: Grid, f: Field, i: int, j: int): (d: real)
    requires g.Valid() && Shaped(f, g) && InGrid(g, i, j)
    ensures var s := EdgeAwareDifference(true, g.My, j);
      d == (At(g, f, i, s.hi) - At(g, f, i, s.lo)) / ((s.hi - s.lo) as real * g.dy)
  {
    (At(g, f, i, j + 1) - At(g, f, i, j - 1)) / (2.0 * g.dy)
  }

  /** The two positions a difference reads along one axis:
      the derivative is `(f[hi] - f[lo]) / ((hi - lo)·spacing)`. */
  datatype Difference = Difference(lo: int, hi: int) {
    predicate Centred(k: int) { lo == k - 1 && hi == k + 1 }
  }

  /** The difference `diff_x_p`/`diff_y_p` use at index `k` of an axis with
      `M` cells: centred on a periodic axis and in the interior, forward at
      the first cell, backward at the last. */
  function EdgeAwareDifference(periodic: bool, M: nat, k: int): (d: Difference)
    requires 0 <= k < M
    ensures d.lo <= k <= d.hi && 0 < d.hi - d.lo <= 2
    ensures d.Centred(k) <==> periodic || 0 < k < M - 1
    ensures !periodic && M >= 2 ==> 0 <= d.lo && d.hi < M
  {
    if periodic then Difference(k - 1, k + 1)
    else if k == 0 then Difference(k, k + 1)
    else if k == M - 1 then Difference(k - 1, k)
    else Difference(k - 1, k + 1)
  }

  /** x-derivative that respects grid periodicity and uses one-sided
      differences at the edges of a non-periodic grid. */
  function DiffXP(g: Grid, f: Field, i: int, j: int): (d: real)
    requires g.Valid() && Shaped(f, g) && InGrid(g, i, j)
    ensures var s := EdgeAwareDifference(g.periodicX, g.Mx, i);
      d == (At(g, f, s.hi, j) - At(g, f, s.lo, j)) / ((s.hi - s.lo) as real * g.dx)
  {
    if g.periodicX then DiffX(g, f, i, j)
    else if i == 0 then (At(g, f, i + 1, j) - f[i][j]) / g.dx
    else if i == g.Mx - 1 then (f[i][j] - At(g, f, i - 1, j)) / g.dx
    else DiffX(g, f, i, j)
  }

  /** y-derivative that respects grid periodicity and uses one-sided
      differences at the edges of a non-periodic grid. */
  function DiffYP(g: Grid, f: Field, i: int, j: int): (d: real)
    requires g.Valid() && Shaped(f, g) && InGrid(g, i, j)
    ensures var s := EdgeAwareDifference(g.periodicY, g.My, j);
      d == (At(g, f, i, s.hi) - At(g, f, i, s.lo)) / ((s.hi - s.lo) as real * g.dy)
  {
    if g.periodicY then DiffY(g, f, i, j)
    else if j == 0 then (At(g, f, i, j + 1) - f[i][j]) / g.dy
    else if j == g.My - 1 then (f[i][j] - At(g, f, i, j - 1)) / g.dy
    else DiffY(g, f, i, j)
  }

  /** Change of `f` from cell `(i, j)` to cell `(i+1, j)`. */
  function StepX(g: Grid, f: Field, i: int, j: int): real
    requires Shaped(f, g) && InGrid(g, i, j) && i + 1 < g.Mx
  {
    f[i + 1][j] - f[i][j]
  }

  /** Change of `f` from cell `(i, j)` to cell `(i, j+1)`. */
  function StepY(g: Grid, f: Field, i: int, j: int): real
    requires Shaped(f, g) && InGrid(g, i, j) && j + 1 < g.My
  {
    f[i][j + 1] - f[i][j]
  }

  /** `f` grows by `c·dx` from each column to the next. */
  ghost predicate LinearInX(g: Grid, f: Field, c: real)
    requires Shaped(f, g)
  {
    forall i, j :: InGrid(g, i, j) && i + 1 < g.Mx ==> StepX(g, f, i, j) == c * g.dx
  }

  /** `f` grows by `c·dy` from each row to the next. */
  ghost predicate LinearInY(g: Grid, f: Field, c: real)
    requires Shaped(f, g)
  {
    forall i, j :: InGrid(g, i, j) && j + 1 < g.My ==> StepY(g, f, i, j) == c * g.dy
  }

  lemma LinearStepX(g: Grid, f: Field, c: real, a: int, j: int)
    requires Shaped(f, g) && InGrid(g, a, j) && a + 1 < g.Mx
    requires LinearInX(g, f, c)
    ensures f[a + 1][j] - f[a][j] == c * g.dx
  {
    assert StepX(g, f, a, j) == c * g.dx;
  }

  lemma LinearStepY(g: Grid, f: Field, c: real, i: int, b: int)
    requires Shaped(f, g) && InGrid(g, i, b) && b + 1 < g.My
    requires LinearInY(g, f, c)
    ensures f[i][b + 1] - f[i][b] == c * g.dy
  {
    assert StepY(g, f, i, b) == c * g.dy;
  }

  lemma Quotient(h: real, d: real, c: real)
    requires d > 0.0 && h == c * d
    ensures h / d == c
  {
  }

  /** Two steps of `h` over a distance of `2·d` give slope `h / d`. */
  lemma CentredQuotient(h: real, d: real, c: real)
    requires d > 0.0 && h == c * d
    ensures (h + h) / (2.0 * d) == c
  {
    assert h + h == c * (2.0 * d);
  }

  /** Forward, backward and centred differences of a field linear in x. */
  lemma LinearX(g: Grid, f: Field, c: real, i: int, j: int)
    requires g.Valid() && Shaped(f, g) && InGrid(g, i, j)
    requires !g.periodicX && g.Mx >= 2
    requires LinearInX(g, f, c)
    ensures i == 0 ==> (f[1][j] - f[0][j]) / g.dx == c
    ensures i == g.Mx - 1 ==> (f[i][j] - f[i - 1][j]) / g.dx == c
    ensures 0 < i < g.Mx - 1 ==> (f[i + 1][j] - f[i - 1][j]) / (2.0 * g.dx) == c
  {
    if i == 0 {
      LinearStepX(g, f, c, 0, j);
      Quotient(f[1][j] - f[0][j], g.dx, c);
    } else if i == g.Mx - 1 {
      LinearStepX(g, f, c, i - 1, j);
      Quotient(f[i][j] - f[i - 1][j], g.dx, c);
    } else {
      LinearStepX(g, f, c, i - 1, j);
      LinearStepX(g, f, c, i, j);
      assert f[i + 1][j] - f[i - 1][j] == (f[i + 1][j] - f[i][j]) + (f[i][j] - f[i - 1][j]);
      CentredQuotient(c * g.dx, g.dx, c);
    }
  }

  /** Forward, backward and centred differences of a field linear in y. */
  lemma LinearY(g: Grid, f: Field, c: real, i: int, j: int)
    requires g.Valid() && Shaped(f, g) && InGrid(g, i, j)
    requires !g.periodicY && g.My >= 2
    requires LinearInY(g, f, c)
    ensures j == 0 ==> (f[i][1] - f[i][0]) / g.dy == c
    ensures j == g.My - 1 ==> (f[i][j] - f[i][j - 1]) / g.dy == c
    ensures 0 < j < g.My - 1 ==> (f[i][j + 1] - f[i][j - 1]) / (2.0 * g.dy) == c
  {
    if j == 0 {
      LinearStepY(g, f, c, i, 0);
      Quotient(f[i][1] - f[i][0], g.dy, c);
    } else if j == g.My - 1 {
      LinearStepY(g, f, c, i, j - 1);
      Quotient(f[i][j] - f[i][j - 1], g.dy, c);
    } else {
      LinearStepY(g, f, c, i, j - 1);
      LinearStepY(g, f, c, i, j);
      assert f[i][j + 1] - f[i][j - 1] == (f[i][j + 1] - f[i][j]) + (f[i][j] - f[i][j - 1]);
      CentredQuotient(c * g.dy, g.dy, c);
    }
  }

  /** On a non-periodic grid every difference `diff_x_p` takes stays inside
      the owned cells, so it recovers the slope of a linear field exactly,
      edges included. */
  lemma DiffXPExactOnLinear(g: Grid, f: Field, c: real, i: int, j: int)
    requires g.Valid() && Shaped(f, g) && InGrid(g, i, j)
    requires !g.periodicX && g.Mx >= 2
    requires LinearInX(g, f, c)
    ensures DiffXP(g, f, i, j) == c
  {
    LinearX(g, f, c, i, j);
    if i == 0 {
      assert At(g, f, 1, j) == f[1][j];
    } else if i == g.Mx - 1 {
      assert At(g, f, i - 1, j) == f[i - 1][j];
    } else {
      assert At(g, f, i - 1, j) == f[i - 1][j] && At(g, f, i + 1, j) == f[i + 1][j];
    }
  }

  /** The y-direction counterpart of `DiffXPExactOnLinear`. */
  lemma DiffYPExactOnLinear(g: Grid, f: Field, c: real, i: int, j: int)
    requires g.Valid() && Shaped(f, g) && InGrid(g, i, j)
    requires !g.periodicY && g.My >= 2
    requires LinearInY(g, f, c)
    ensures DiffYP(g, f, i, j) == c
  {
    LinearY(g, f, c, i, j);
    if j == 0 {
      assert At(g, f, i, 1) == f[i][1];
    } else if j == g.My - 1 {
      assert At(g, f, i, j - 1) == f[i][j - 1];
    } else {
      assert At(g, f, i, j - 1) == f[i][j - 1] && At(g, f, i, j + 1) == f[i][j + 1];
    }
  }
}

=== FILE: sea_level_cc.dfy ===
/** Output side of the connected-components sea-level mask.

    The connected-components pass (not part of this model) splits each grid
    row into runs of consecutive foreground cells and links runs into
    components. Run `k` starts at cell `(i[k], j[k])` and covers `lengths[k]`
    cells along x; the root label of its component is given by
    `trackParentRun`, which enters here as the function parameter `root`.
    Runs whose component has a root label greater than 1 are the ones
    connected to a sink, and are painted into the result. */
module SeaLevelCC {
  import opened Fields

  /** The grid edge: the first or last cell along either axis. */
  predicate GridEdge(g: Grid, i: int, j: int) {
    i == 0 || i == g.Mx - 1 || j == 0 || j == g.My - 1
  }

  /** The sink mask set up by the default constructor: 1 on the grid edge,
      0 inside. */
  function EdgeMask(g: Grid): (m: seq<seq<int>>)
    ensures Shaped(m, g)
    ensures forall i, j :: InGrid(g, i, j) ==> m[i][j] == 0 || m[i][j] == 1
    ensures forall i, j :: InGrid(g, i, j) ==> (m[i][j] == 1 <==> GridEdge(g, i, j))
  {
    seq(g.Mx, i => seq(g.My, j => if GridEdge(g, i, j) then 1 else 0))
  }

  /** The edge cells are exactly the cells with a neighbour off the grid. */
  lemma EdgeMeansNeighbourOffGrid(g: Grid, i: int, j: int)
    requires InGrid(g, i, j)
    ensures EdgeMask(g)[i][j] == 1 <==>
      !InGrid(g, i + 1, j) || !InGrid(g, i - 1, j) || !InGrid(g, i, j + 1) || !InGrid(g, i, j - 1)
  {
  }

  /** The run lists: start cell and length of each run, and the parent
      links that `root` follows. */
  datatype Runs = Runs(i: seq<int>, j: seq<int>, lengths: seq<int>, parents: seq<int>)

  /** Run `k` exists in the lists (the lists are read at `0 .. runNumber`). */
  predicate Listed(runs: Runs, runNumber: int) {
    runNumber < |runs.i| && runNumber < |runs.j| && runNumber < |runs.lengths|
  }

  /** Run `k` belongs to a component whose root label exceeds 1. */
  predicate Labelled(runs: Runs, root: (int, seq<int>) -> int, k: int) {
    root(k, runs.parents) > 1
  }

  /** Cell `(a, b)` lies in run `k`. */
  predicate InRun(runs: Runs, k: int, a: int, b: int)
    requires 0 <= k < |runs.i| && k < |runs.j| && k < |runs.lengths|
  {
    runs.j[k] == b && runs.i[k] <= a < runs.i[k] + runs.lengths[k]
  }

  /** Cell `(a, b)` lies in a labelled run with index below `K`. */
  predicate CoveredBelow(runs: Runs, root: (int, seq<int>) -> int, K: int, a: int, b: int)
    requires K <= |runs.i| && K <= |runs.j| && K <= |runs.lengths|
  {
    exists k :: 0 <= k < K && Labelled(runs, root, k) && InRun(runs, k, a, b)
  }

  /** Every labelled run among `0 .. runNumber` lies inside the grid. */
  predicate RunsInGrid(g: Grid, runs: Runs, root: (int, seq<int>) -> int, runNumber: int)
    requires Listed(runs, runNumber)
  {
    forall k :: 0 <= k <= runNumber && Labelled(runs, root, k) ==>
      runs.lengths[k] <= 0 ||
      (0 <= runs.j[k] < g.My && 0 <= runs.i[k] && runs.i[k] + runs.lengths[k] <= g.Mx)
  }

  /** The result of labelling `result`: `value` on every cell of a labelled
      run among `0 .. runNumber`, the old value elsewhere. */
  function Painted(g: Grid, runs: Runs, root: (int, seq<int>) -> int, runNumber: int,
                   result: Field, value: real): (r: Field)
    requires Listed(runs, runNumber) && Shaped(result, g)
    ensures Shaped(r, g)
    ensures forall a, b :: InGrid(g, a, b) && CoveredBelow(runs, root, runNumber + 1, a, b) ==> r[a][b] == value
    ensures forall a, b :: InGrid(g, a, b) && !CoveredBelow(runs, root, runNumber + 1, a, b) ==> r[a][b] == result[a][b]
  {
    seq(g.Mx, a requires 0 <= a < g.Mx =>
      seq(g.My, b requires 0 <= b < g.My =>
        if CoveredBelow(runs, root, runNumber + 1, a, b) then value else result[a][b]))
  }

  /** Painting twice with the same runs and value paints once. */
  lemma PaintedIdempotent(g: Grid, runs: Runs, root: (int, seq<int>) -> int, runNumber: int,
                          result: Field, value: real)
    requires Listed(runs, runNumber) && Shaped(result, g)
    ensures Painted(g, runs, root, runNumber, Painted(g, runs, root, runNumber, result, value), value)
         == Painted(g, runs, root, runNumber, result, value)
  {
    var once := Painted(g, runs, root, runNumber, result, value);
    var twice := Painted(g, runs, root, runNumber, once, value);
    assert forall a :: 0 <= a < g.Mx ==> twice[a] == once[a];
  }

  /** Walks the runs `0 .. runNumber` and writes `value` into every cell of
      each labelled one, in place. */
  method Label(g: Grid, runNumber: int, runs: Runs, root: (int, seq<int>) -> int,
               result: Field, value: real) returns (r: Field)
    requires Shaped(result, g) && Listed(runs, runNumber)
    requires RunsInGrid(g, runs, root, runNumber)
    ensures r == Painted(g, runs, root, runNumber, result, value)
  {
    r := result;
    var k := 0;
    while k <= runNumber
      invariant 0 <= k <= runNumber + 1 || (k == 0 && runNumber < 0)
      invariant Shaped(r, g)
      invariant forall a, b :: InGrid(g, a, b) ==>
        r[a][b] == if CoveredBelow(runs, root, k, a, b) then value else result[a][b]
    {
      if root(k, runs.parents) > 1 {
        var j := runs.j[k];
        var n := 0;
        while n < runs.lengths[k]
          invariant 0 <= n && (n <= runs.lengths[k] || n == 0)
          invariant Shaped(r, g)
          invariant forall a, b :: InGrid(g, a, b) ==>
            r[a][b] == if CoveredBelow(runs, root, k, a, b) || (b == j && runs.i[k] <= a < runs.i[k] + n)
                       then value else result[a][b]
        {
          var i := runs.i[k] + n;
          r := r[i := r[i][j := value]];
          n := n + 1;
        }
        forall a, b | InGrid(g, a, b)
          ensures CoveredBelow(runs, root, k + 1, a, b) <==>
                  CoveredBelow(runs, root, k, a, b) || InRun(runs, k, a, b)
        {
          if CoveredBelow(runs, root, k + 1, a, b) && !InRun(runs, k, a, b) {
            var k' :| 0 <= k' < k + 1 && Labelled(runs, root, k') && InRun(runs, k', a, b);
          }
        }
      } else {
        forall a, b | InGrid(g, a, b)
          ensures CoveredBelow(runs, root, k + 1, a, b) <==> CoveredBelow(runs, root, k, a, b)
        {
          if CoveredBelow(runs, root, k + 1, a, b) {
            var k' :| 0 <= k' < k + 1 && Labelled(runs, root, k') && InRun(runs, k', a, b);
          }
        }
      }
      k := k + 1;
    }
    assert forall a :: 0 <= a < g.Mx ==> r[a] == Painted(g, runs, root, runNumber, result, value)[a];
  }

  /** The sea-level mask: cleared to 0, then 1 painted on every cell of a
      labelled run. */
  method ComputeMask(g: Grid, runNumber: int, runs: Runs, root: (int, seq<int>) -> int) returns (mask: Field)
    requires Listed(runs, runNumber) && RunsInGrid(g, runs, root, runNumber)
    ensures Shaped(mask, g)
    ensures forall a, b :: InGrid(g, a, b) ==> mask[a][b] == 0.0 || mask[a][b] == 1.0
    ensures forall a, b :: InGrid(g, a, b) ==>
      (mask[a][b] == 1.0 <==> exists k :: 0 <= k <= runNumber && Labelled(runs, root, k) && InRun(runs, k, a, b))
  {
    var zero := seq(g.Mx, _ => seq(g.My, _ => 0.0));
    mask := Label(g, runNumber, runs, root, zero, 1.0);
  }
}
